=== FILE: README.md ===
# Minesweeper knowledge-base player, modelled in Dafny

This project models the knowledge-base inference engine of the Minesweeper player in
`minesweeper.py`. The engine has these parts:

- A `Sentence` is a set of cells and a count of how many of them are mines. It also
  remembers the cells it learned were mines or safe.
- A `MinesweeperAI` holds the moves made, the cells known to be mines or safe, and a list
  of sentences (its knowledge).
- Each observation ("cell `c` is safe and has `n` mines around it") becomes a sentence.
- A sentence is shortened against the known facts, then run through two trivial rules:
  a count equal to the size means all mines; a count of zero means all safe.
- The subset rule combines sentences: when one sentence's cells lie inside another's, the
  difference of the cells holds the difference of the counts.
- Moves are picked from the known-safe cells, or else at random from the board.

The board side is modelled too: the board's `nearby_mines` count and its `won` test.

Python mutates `Sentence` objects held in the knowledge list in place. The model has
value semantics, so each such mutation is written back explicitly:

- `Inference.Step.inPlace` records that shortening found nothing, so inference ran on the
  passed object itself.
- `Knowledge.Ref` records whether the observation's own sentence object is stored in the
  knowledge, or sits outside it.

Modules, one per file:

| module | file | contents |
|---|---|---|
| `Wrappers` | wrappers.dfy | `Option` |
| `Cells` | cells.dfy | cells, the grid, neighbourhoods, and two general finite-set lemmas |
| `Sentences` | sentence.dfy | `Sentence`, its marking operations, truth of a sentence against a mine layout |
| `Board` | board.dfy | the game board, `NearbyMines`, `Won` |
| `AIState` | ai_state.dfy | the player record, marking and loading facts, global marking |
| `Inference` | inference.dfy | shortening, the trivial rules, the subset rule |
| `Knowledge` | knowledge.dfy | sub-sentence generation, inference over all sentences, sentence intake, `add_knowledge` |
| `Soundness` | soundness.dfy | every step preserves truth against the real mine layout; what the trivial rules learn |
| `Moves` | moves.dfy | safe and random move selection |

Python's loops over sets are modelled in two forms:

- closed-form functions that mark a whole set at once (`MarkMines`, `MarkSafes`,
  `LoadFromSentence`), which the functional pipeline uses;
- methods with per-cell loops (`MarkEachMine`, `LoadFromSentenceToAI`, `MarkMinesGlobal`, …),
  proved equal to the closed forms.

Soundness is stated against an arbitrary mine set `m`:

- `Holds(s, m)`: exactly `s.count` of `s.cells` are in `m`.
- `Sound(ai, m)`: every stored sentence is true of `m`, every known mine is in `m`, and no
  known-safe cell is in `m`.

## Model

| member | source | states |
|---|---|---|
| `Sentences.NewSentence` | minesweeper.py:98-103 | A new sentence holds exactly the given cells and count and has learned no mines or safe cells, so no learned cell is among its cells. |
| `Sentences.KnownMines` | minesweeper.py:116-120 | The cells the sentence was told are mines. While no learned cell is among its cells, none of these is either, although the docstring describes them as cells of the sentence. |
| `Sentences.KnownSafes` | minesweeper.py:122-126 | The cells the sentence was told are safe, likewise never among its cells while no learned cell is. |
| `Sentences.MarkKeepsLearnedApart` | minesweeper.py:128-146 | Marking a mine or a safe cell keeps every learned cell out of the sentence's cells. |
| `Sentences.MarkMine` | minesweeper.py:128-136 | If the cell is in the sentence, exactly that cell leaves and the count drops by one; otherwise cells and count are unchanged. Either way the cell joins the learned mines, and the learned safes are untouched. |
| `Sentences.MarkSafe` | minesweeper.py:138-146 | The cell leaves the cells if present, the count never changes, and the cell joins the learned safes only. |
| `Sentences.MarkNeverGrows` | minesweeper.py:128-146 | Marking never enlarges a sentence. Marking a mine never makes the cell a learned safe, and marking a safe cell never makes it a learned mine. |
| `Sentences.SameStatementIgnoresLearned` | minesweeper.py:105-108 | Sentence equality depends on cells and count only: changing the learned sets on either side never changes the verdict. |
| `Sentences.MarkMinesStep` | minesweeper.py:251-252 | Marking one more mine on a sentence already marked for a set of mines equals marking the enlarged set at once; the count loses exactly the cells that were present. |
| `Sentences.MarkSafesStep` | minesweeper.py:258-259 | The same for safe cells. |
| `Sentences.MarkNothing` | minesweeper.py:251-259 | Marking no cells leaves a sentence as it is. |
| `Sentences.MarkSetsKeepLearnedApart` | minesweeper.py:248-259 | Marking a whole set of mines, or of safe cells, keeps every learned cell out of the sentence's cells. With `NewSentence` and `MarkKeepsLearnedApart`, every sentence the program builds and marks has its learned cells outside its cells. |
| `Sentences.HoldsBoundsCount` | minesweeper.py:91-100 | A true sentence's count lies between 0 and its number of cells. |
| `Sentences.FullCountAllMines` | minesweeper.py:248-252 | For a true sentence, a count equal to its size means every cell is a mine. |
| `Sentences.ZeroCountNoMines` | minesweeper.py:255-259 | For a true sentence, a zero count means no cell is a mine. |
| `Sentences.MarkMineTruthful` | minesweeper.py:128-136 | Marking a real mine keeps a true sentence true. |
| `Sentences.MarkSafeTruthful` | minesweeper.py:138-146 | Marking a non-mine keeps a true sentence true. |
| `Sentences.MarkMinesTruthful` | minesweeper.py:251-252 | Marking any set of real mines keeps a true sentence true. |
| `Sentences.MarkSafesTruthful` | minesweeper.py:258-259 | Marking any set of non-mines keeps a true sentence true. |
| `Cells.NeighbourCellsMembership` | minesweeper.py:229-240 | A cell is a neighbour exactly when it is within one row and one column, is a different cell, and lies on the grid. |
| `Cells.NeighbourCellsAtMostEight` | minesweeper.py:229-240 | A cell has at most eight neighbours. |
| `Cells.AllCellsMembership` | minesweeper.py:417-419 | The board enumeration holds exactly the in-grid cells. |
| `Board.NearbyMines` | minesweeper.py:59-82 | The two nested loops over the 3×3 box count exactly the mines among the cell's in-grid neighbours. The count is at most 8. |
| `Board.CountBeforeIsCounted` | minesweeper.py:70-80 | The count the loops hold at row `i`, column `j` is the number of mines among the in-grid cells visited so far, other than the cell itself. |
| `Board.WonByCount` | minesweeper.py:84-88 | With no false flags, the game is won exactly when as many cells are flagged as there are mines. |
| `AIState.NewAI` | minesweeper.py:154-169 | A new player has the given dimensions, has made no moves, knows no mines or safe cells, and holds no sentences. |
| `AIState.MarkMineInAll` | minesweeper.py:211-212 | The loop over the knowledge keeps its length and order, and turns each sentence into its own `MarkMine`. |
| `AIState.MarkSafeInAll` | minesweeper.py:220-221 | The same for `MarkSafe`. |
| `AIState.MarkMineGlobal` | minesweeper.py:205-212 | The cell joins the player's mines and the safes are unchanged. Every sentence becomes its own `MarkMine` at the same position, and no sentence keeps the cell. |
| `AIState.MarkSafeGlobal` | minesweeper.py:214-221 | The same for a safe cell. |
| `AIState.LoadFromSentenceToAI` | minesweeper.py:180-193 | The per-cell loops over a sentence's learned safes, then its learned mines, add exactly those sets to the player's facts and change nothing else. |
| `AIState.MarkSafesGlobal` | minesweeper.py:175-176 | Marking a set of safe cells one at a time, globally, equals marking the whole set at once in every sentence. |
| `AIState.MarkMinesGlobal` | minesweeper.py:177-178 | The same for a set of mines. |
| `AIState.LoadFromSentenceToEverywhere` | minesweeper.py:171-178 | The player's facts gain the sentence's learned sets. Every stored sentence loses those cells, and its count loses its cells that are in the learned mines but not in the learned safes. |
| `Inference.Shorten` | minesweeper.py:313-336 | There is no result exactly when the cells are empty, when they are disjoint from both the known safes and the known mines, or when nothing would remain. Otherwise the result's cells are the cells minus the known mines and safes, non-empty and strictly smaller. Its count loses the known mines among the cells, and it has learned nothing. |
| `Inference.ShortenIdempotent` | minesweeper.py:313-336 | A shortened sentence cannot be shortened again against the same facts. |
| `Inference.InferTrivial` | minesweeper.py:242-263 | An empty sentence changes nothing. A full count puts every cell among the player's mines and in the sentence's learned mines, leaving it empty with count 0. A zero count does the same for safe cells. Any other sentence changes nothing. Facts grow only by the sentence's cells and learned sets. Afterwards the sentence is empty or neither rule applies to it. |
| `Inference.MarkEachMine` | minesweeper.py:251-252 | The per-cell loop marking each cell of the sentence a mine, in the player and in the sentence, equals marking the whole cell set at once. |
| `Inference.MarkEachSafe` | minesweeper.py:258-259 | The same for safe cells. |
| `Inference.InferTrivialStepwise` | minesweeper.py:242-263 | The source's per-cell loops, with the zero-count test repeated after the mine loop and the final load, compute exactly `InferTrivial`. |
| `Inference.ShortenAndInfer` | minesweeper.py:338-343 | Inference runs on the passed object itself exactly when shortening found nothing. The result's cells are a subset of the input's. A shortened result is strictly smaller and shares no cell with the known facts. The knowledge and move record are untouched. |
| `Inference.ShortenAndInferLearns` | minesweeper.py:338-343 | Let `t` be the shortened copy, or the passed sentence when shortening gives `False`. A non-empty `t` with a full count puts all of `t`'s cells among the known mines, and one with a zero count puts them among the known safe cells; either way the result is left empty. When neither rule applies to `t`, nothing is learned and the result is `t` itself. No cell outside `t`'s cells and learned sets becomes a fact. |
| `Inference.SettledUnchanged` | minesweeper.py:338-343 | A sentence none of whose cells is a known fact, and to which neither rule applies, passes through shortening and inference untouched and in place, and nothing is learned. |
| `Inference.Derive` | minesweeper.py:363-383 | Nothing is derived exactly when neither cell set is a proper subset of the other. Otherwise the result is the larger set minus the smaller, with the larger count minus the smaller, and its cells are non-empty. |
| `Knowledge.InferStored` | minesweeper.py:361 | Re-inferring the stored sentence at one slot changes no other slot and only removes cells from that one. The sentence the subset rule then pairs with lies within the stored one. The knowledge keeps its length, and facts only grow. |
| `Knowledge.InferStoredWritesBack` | minesweeper.py:338-343 | The slot follows the source's object semantics. When shortening makes a copy, the stored sentence stays as it was. When inference ran on the stored object itself, the slot holds the result. |
| `Knowledge.Derived` | minesweeper.py:363-383 | One pair contributes at most one sentence, none exactly when the subset rule derives nothing. What it contributes is non-empty and either inside or disjoint from the generating sentence's cells. |
| `Knowledge.SubSentencesFrom` | minesweeper.py:354-383 | The scan keeps the knowledge's length, stored sentences only lose cells, and facts only grow. |
| `Knowledge.SubSentencesFromDerives` | minesweeper.py:354-383 | The scan derives at most one sentence per slot scanned. Each is non-empty and either inside or disjoint from the generating sentence's cells. Each is what the subset rule gives for the generating sentence and some sentence whose cells lie within those of a stored sentence of a slot scanned. |
| `Knowledge.SubSentencesFromPairs` | minesweeper.py:354-383 | Each derived sentence is what the subset rule gives for the generating sentence and the stored sentence of a slot scanned and not skipped. That stored sentence is taken as shortening and inference leave it against facts the scan held at some point: at least the facts it started with, at most those it ended with. |
| `Knowledge.SkippedPairsDeriveNothing` | minesweeper.py:355-359 | Pairs equal to the generating sentence, or with empty cells on either side, derive nothing and change nothing. |
| `Knowledge.InferAliased` | minesweeper.py:352 | Shortening and inferring the generating sentence writes its new value back exactly to the slot that holds that object, and nowhere when no slot does. The passed value only loses cells. |
| `Knowledge.GenerateSubSentences` | minesweeper.py:350-388 | Generation keeps the knowledge's length, and stored sentences only shrink. An empty knowledge always gives `False` (`None`). Otherwise there are up to as many derived sentences as stored ones, all non-empty, and nothing derived is reported as `False`, never as an empty list. |
| `Knowledge.DerivedFromAllMembership` | minesweeper.py:354-383 | The reference result of the subset rule against the stored sentences as they stand contains a sentence exactly when some stored sentence that is not skipped gives it. |
| `Knowledge.SettledScan` | minesweeper.py:354-383 | When every stored sentence scanned is settled (none of its cells is a known fact and neither trivial rule applies), the scan changes nothing and derives exactly that reference result, in order. |
| `Knowledge.SettledGeneration` | minesweeper.py:350-388 | When the generating sentence and every stored sentence are settled, generation changes nothing. It derives something exactly when some stored sentence that is not skipped is a proper subset or superset of the generating one. Every such difference sentence is derived, and nothing else is. |
| `Knowledge.SubsetRuleExample` | minesweeper.py:350-388 | A 3×3 player holding "one mine among (0,0) and (0,1)" derives from "one mine among (0,0), (0,1) and (0,2)" exactly one sentence: no mine at (0,2). |
| `Knowledge.ShortenedPairExample` | minesweeper.py:361-367 | The subset rule pairs with the stored sentence as shortened, not as stored. A player who knows (0,0) is safe and holds "one mine among (0,0), (0,1) and (0,2)" derives from "one mine among (0,1), (0,2) and (1,1)" exactly one sentence: no mine at (1,1). The stored cells are not a subset of the new ones. |
| `Knowledge.OneCopyPaired` | minesweeper.py:350-388 | Take one stored sentence whose shortened copy the trivial rules leave alone, and a settled generating sentence not skipped against it. The generator derives exactly what the subset rule gives for the generating sentence and that copy, and `False` when that is nothing. |
| `Knowledge.InferFromAllFrom` | minesweeper.py:265-268 | The pass over the stored sentences keeps their number, only removes cells, and only adds facts. |
| `Knowledge.Intake` | minesweeper.py:270-276 | The sentence is dropped exactly when shortening and inference leave it without cells. Otherwise it is appended at the end, and the appended sentence has cells. If the caller's object is stored, it is that last slot. Stored sentences only shrink, and facts only grow. |
| `Knowledge.IntakeAppends` | minesweeper.py:270-276 | A kept sentence is appended as the sentence the trivial rules ran on: the shortened copy, or the caller's sentence itself when shortening found nothing. Generation runs against the knowledge as it stood, and its results are what intake reports. The caller's object is that last slot exactly when shortening found nothing. |
| `Knowledge.ProcessAndAdd` | minesweeper.py:270-279 | As written, `TypeError` is raised exactly when the sentence is kept and nothing is derived. On an empty knowledge it is raised whenever the sentence is kept. When it returns a kept sentence, the knowledge is intake's knowledge followed by the derived sentences, so it has grown by that sentence and at least one derived one. |
| `Knowledge.ProcessAndAddStores` | minesweeper.py:270-279 | When intake keeps the sentence and returns, the knowledge is the generator's knowledge, then the sentence the trivial rules ran on, then the derived sentences in order. |
| `Knowledge.ProcessAndAddFixed` | minesweeper.py:270-279 | With "nothing derived" read as an empty list, intake never raises, and a kept sentence always lengthens the knowledge. The knowledge after intake is extended by the derived sentences, or by nothing when nothing is derived. |
| `Knowledge.FinishObservation` | minesweeper.py:303-308 | The closing passes of `add_knowledge` keep the knowledge's length, only remove cells, and only add facts. |
| `Knowledge.AddKnowledge` | minesweeper.py:281-309 | `KeyError` is raised exactly for an off-grid cell. When the call returns, the cell is a move made and a known safe cell, stored sentences only shrink, and facts only grow. |
| `Knowledge.AddKnowledgeStores` | minesweeper.py:281-300 | When `add_knowledge` returns and the observation's sentence survived intake, the knowledge has grown by that sentence and at least one derived sentence (step 3 of the docstring). The first new slot holds, within what the closing passes remove, the observation's sentence as the trivial rules saw it. The following slots hold, likewise, the derived sentences in order. |
| `Knowledge.AddKnowledgeFixed` | minesweeper.py:281-309 | With the corrected intake, the call returns exactly for an in-grid cell and raises only `KeyError`. A sentence that survives intake lengthens the knowledge. |
| `Knowledge.FirstObservationRaises` | minesweeper.py:270-279 | As written, the first observation on a fresh 8×8 board — one mine next to the corner — raises `TypeError`. The corrected version takes it in as the only stored sentence. |
| `Soundness.NewAISound` | minesweeper.py:154-169 | A fresh player is sound for every mine layout: it knows no facts and holds no sentences. |
| `Soundness.SoundFactsDisjoint` | minesweeper.py:164-166 | A sound player never holds a cell as both safe and a mine. |
| `Soundness.AmongSplit` | minesweeper.py:326-330 | The mines among a cell set split into those outside a set `k` and those inside it, and the counts add up. |
| `Soundness.SubsetSound` | minesweeper.py:365-367 | If `B`'s cells lie inside `A`'s, and both counts are true of a mine set `M`, then `A.cells − B.cells` holds exactly `A.count − B.count` mines of `M`. |
| `Soundness.DeriveSound` | minesweeper.py:363-383 | Whatever the subset rule derives from two true sentences is true. |
| `Soundness.ShortenSound` | minesweeper.py:313-336 | Shortening a true sentence against sound facts gives a true sentence. |
| `Soundness.InferTrivialSound` | minesweeper.py:242-263 | The trivial rules on a true sentence with sound facts keep both true. |
| `Soundness.ShortenAndInferSound` | minesweeper.py:338-343 | Shortening then inferring keeps the facts, the result and the passed object's value true. |
| `Soundness.InferStoredSound` | minesweeper.py:361 | Re-inferring a stored sentence of a sound state keeps the state sound, and the sentence inference ran on is true. |
| `Soundness.InferAliasedSound` | minesweeper.py:352 | The generator's first step keeps a sound state sound. The sentence it ran on and the passed sentence's value are both true. |
| `Soundness.SubSentencesFromSound` | minesweeper.py:354-383 | The scan keeps a sound state sound and derives only true sentences. |
| `Soundness.ScanStepSound` | minesweeper.py:361-383 | A step that pairs a stored sentence with the generating one keeps the scan sound when both sentences and the rest of the scan are true. |
| `Soundness.GenerateSubSentencesSound` | minesweeper.py:350-388 | Generation keeps a sound state sound. The passed sentence and all derived sentences are true. |
| `Soundness.InferFromAllFromSound` | minesweeper.py:265-268 | The pass over all stored sentences keeps a sound state sound. |
| `Soundness.ShortenKeepsTrivial` | minesweeper.py:313-336 | Against sound facts, a true sentence with a full count shortens to a sentence with a full count, and one with a zero count to one with a zero count. The cells shortening removes are known mines, or known safe cells, respectively. |
| `Soundness.ShortenAndInferLearnsTrue` | minesweeper.py:338-343 | From sound facts, shortening and inference make every cell of a true non-empty sentence with a full count a known mine, and every cell of one with a zero count a known safe cell. |
| `Soundness.InferStoredLearns` | minesweeper.py:361 | Re-inferring a stored sentence of a sound state learns its trivial consequences. |
| `Soundness.InferFromAllFromLearns` | minesweeper.py:265-268 | From a sound state, the pass from slot `j` on makes the cells of every full sentence it started with known mines, and those of every zero-count one known safe cells. |
| `Soundness.InferFromAllLearns` | minesweeper.py:265-268 | The same for the pass over all stored sentences. |
| `Soundness.AppendTruthful` | minesweeper.py:276-279 | Extending true knowledge by true sentences keeps it true. |
| `Soundness.IntakeAppendedSound` | minesweeper.py:270-276 | When shortening and inference leave a true sentence with cells, intake appends it. The resulting state, the caller's sentence object and every derived sentence are true. |
| `Soundness.IntakeSound` | minesweeper.py:270-276 | Intake of a true sentence keeps the state sound, and the caller's sentence object stays true. |
| `Soundness.ProcessAndAddSound` | minesweeper.py:270-279 | As written, the state intake returns, or raises in, is sound. |
| `Soundness.ProcessAndAddFixedSound` | minesweeper.py:270-279 | The corrected intake keeps a sound state sound. |
| `Soundness.FinishObservationSound` | minesweeper.py:303-308 | The closing passes of an observation keep a sound state sound. |
| `Soundness.FinishObservationLearns` | minesweeper.py:303-308 | From a sound state, after the closing passes of an observation, the cells of every full stored sentence are known mines and those of every zero-count one known safe cells. |
| `Soundness.ObservationTruthful` | minesweeper.py:59-82 | The board's nearby-mines count for a cell, taken as a sentence over its neighbours, is true of the board's mines. |
| `Soundness.AddKnowledgeSound` | minesweeper.py:281-309 | From a sound state, a non-mine cell and its true count, the state `add_knowledge` returns or raises in is sound. In particular a returned player's safe and mine facts are disjoint. |
| `Soundness.AddKnowledgeFixedSound` | minesweeper.py:281-309 | With the corrected intake, an in-grid non-mine cell and its true count always give a sound state with disjoint safe and mine facts. |
| `Soundness.MarkGlobalSound` | minesweeper.py:205-221 | Marking a real mine, or a non-mine cell, everywhere keeps a sound state sound. |
| `Moves.SafeMovesAreSafe` | minesweeper.py:390-407 | When the player's facts are true, no cell a safe move can pick is a mine. |
| `Moves.MakeSafeMove` | minesweeper.py:390-407 | No move exactly when every known-safe cell has been played; otherwise a known-safe cell not yet played. The player is unchanged. |
| `Moves.RandomMoveOptionsMembership` | minesweeper.py:417-419 | The random-move options are exactly the in-grid cells neither played nor known to be mines. |
| `Moves.MakeRandomMove` | minesweeper.py:409-421 | No move (the `IndexError`) exactly when there are no options. Otherwise an in-grid cell neither played nor known to be a mine. |
| `Moves.NoOptionsWhenCovered` | minesweeper.py:417-421 | Random moves run out exactly when every board cell has been played or is a known mine. |

## Left out

- Random mine placement in `Minesweeper.__init__` (minesweeper.py:29-35): the board is a
  parameter, constrained by `Board.WellFormed`.
- `Minesweeper.print` and `is_mine`: console output and a direct lookup, with nothing to
  state.
- The `print` calls in inference, the `logging` setup and calls, and the `history` list:
  output and debugging only.
- `update_sentence_according_to_AI_info` and `add_new_shortened_Sentence_if_possible`:
  nothing in the program calls them.
- `mark_mine_global`, `mark_safe_global` and `load_safes_and_mines_from_a_sentence_to_everywhere`
  (minesweeper.py:171-178, 205-221) are modelled, but no path of the player reaches them.
  The two global marking functions are called only by
  `load_safes_and_mines_from_a_sentence_to_everywhere` (minesweeper.py:176, 178), and
  nothing in the program calls that. `add_knowledge` and inference use the non-global
  `mark_safe` and `mark_mine`. So
  `AIState.MarkMineGlobal`, `AIState.MarkSafeGlobal`, `AIState.MarkSafesGlobal`,
  `AIState.MarkMinesGlobal`, `AIState.LoadFromSentenceToEverywhere` and
  `Soundness.MarkGlobalSound` describe code that no path of the player reaches.
- `mark_safe_for_AI_and_sentence` and `mark_mine_for_AI_and_sentence` have no member of
  their own. They appear as single steps of `Inference.MarkEachSafe` and
  `Inference.MarkEachMine`.
- Moves.MakeRandomMove: does not model that `random.choice` is uniform. Any option may be
  returned, and the `IndexError` for no options is the `None` result.
- Moves.MakeSafeMove: `set.pop` picks an element in hash order. The model leaves the
  element open.
- No fixed-point completeness is claimed. `add_knowledge` runs a fixed sequence of passes.
  The model proves what each pass preserves, and what one pass of the trivial rules learns
  from the sentences it starts with (`Soundness.InferFromAllLearns`); it does not prove
  that repeated passes would learn nothing more.
- Knowledge.SettledGeneration: the subset rule's completeness (every proper subset or
  superset among the stored sentences yields its difference) is stated in general only
  when every sentence involved is settled, that is, shortening and the trivial rules would
  not change it. Otherwise the generator pairs with the re-inferred copy of a stored
  sentence. `Knowledge.SubSentencesFromPairs` states that each derived sentence comes from
  such a copy, re-inferred against facts between those the scan started and ended with; it
  does not pin down which facts. `Knowledge.ShortenedPairExample` shows the copy at work in
  one case.
- No unconditional claim is made that the player's safe and mine facts stay disjoint. The
  program never checks this. It is proved only when every observation is true of the real
  mine layout (`Soundness.AddKnowledgeSound`).
- The fourth `False` case of shortening (the result equal to the input,
  minesweeper.py:334-335) is modelled, but it is dead code. A result that removes at least
  one cell can never equal its input, so `Inference.Shorten` states `None` in terms of the
  first three cases only.
- `__ne__` and `__str__` of `Sentence` are left out. Inequality is the negation of
  `SameStatement`, and `__str__` is formatting only.

## Findings

| source | as written | input that shows it | evidently intended | confidence | as-written member | corrected member |
|---|---|---|---|---|---|---|
| minesweeper.py:275-279 | `process_and_add_sentence_to_knowledge` calls `len(sub_ss)` on the generator's result, which is `False` when nothing is derived. This raises `TypeError` whenever the new sentence survives shortening and nothing can be combined with it. | A fresh 8×8 player; `add_knowledge((0, 0), 1)`. The corner sentence `{(0,1), (1,0), (1,1)} = 1` survives, and the empty knowledge derives nothing. | Nothing derived means nothing to extend; the sentence is kept and `add_knowledge` carries on. | not executed | `Knowledge.FirstObservationRaises` (with `Knowledge.ProcessAndAdd`, `Knowledge.AddKnowledge`) | `Knowledge.AddKnowledgeFixed` (with `Knowledge.ProcessAndAddFixed`, `Soundness.AddKnowledgeFixedSound`) |

=== FILE: ai_state.dfy ===
/** The player's belief state and the operations that record facts in it. */
module AIState {

  import opened Cells
  import opened Sentences

  /** Moves made, cells known to be mines or safe, and the sentences believed true. */
  datatype AI = AI(height: int, width: int, movesMade: set<Cell>, mines: set<Cell>, safes: set<Cell>,
                   knowledge: seq<Sentence>)

  /** The state at the start of a game: nothing known, nothing played. */
  function NewAI(height: int, width: int): (r: AI)
    ensures r.height == height && r.width == width
    ensures r.movesMade == {} && r.mines == {} && r.safes == {} && r.knowledge == []
  {
    AI(height, width, {}, {}, {}, [])
  }

  /** Apply `Sentences.MarkMine(_, c)` to every sentence, keeping their order. */
  function MarkMineInAll(kb: seq<Sentence>, c: Cell): (r: seq<Sentence>)
    ensures |r| == |kb|
    ensures forall i :: 0 <= i < |kb| ==> r[i] == MarkMine(kb[i], c)
  {
    if kb == [] then [] else [MarkMine(kb[0], c)] + MarkMineInAll(kb[1..], c)
  }

  /** Apply `Sentences.MarkSafe(_, c)` to every sentence, keeping their order. */
  function MarkSafeInAll(kb: seq<Sentence>, c: Cell): (r: seq<Sentence>)
    ensures |r| == |kb|
    ensures forall i :: 0 <= i < |kb| ==> r[i] == MarkSafe(kb[i], c)
  {
    if kb == [] then [] else [MarkSafe(kb[0], c)] + MarkSafeInAll(kb[1..], c)
  }

  /** Record a mine in the player's facts and in every sentence held. */
  function MarkMineGlobal(ai: AI, c: Cell): (r: AI)
    ensures r.mines == ai.mines + {c} && r.safes == ai.safes
    ensures r.movesMade == ai.movesMade && r.height == ai.height && r.width == ai.width
    ensures |r.knowledge| == |ai.knowledge|
    ensures forall i :: 0 <= i < |ai.knowledge| ==> r.knowledge[i] == MarkMine(ai.knowledge[i], c)
    ensures forall i :: 0 <= i < |r.knowledge| ==> c !in r.knowledge[i].cells
  {
    ai.(mines := ai.mines + {c}, knowledge := MarkMineInAll(ai.knowledge, c))
  }

  /** Record a safe cell in the player's facts and in every sentence held. */
  function MarkSafeGlobal(ai: AI, c: Cell): (r: AI)
    ensures r.safes == ai.safes + {c} && r.mines == ai.mines
    ensures r.movesMade == ai.movesMade && r.height == ai.height && r.width == ai.width
    ensures |r.knowledge| == |ai.knowledge|
    ensures forall i :: 0 <= i < |ai.knowledge| ==> r.knowledge[i] == MarkSafe(ai.knowledge[i], c)
    ensures forall i :: 0 <= i < |r.knowledge| ==> c !in r.knowledge[i].cells
  {
    ai.(safes := ai.safes + {c}, knowledge := MarkSafeInAll(ai.knowledge, c))
  }

  /** Copy what a sentence learned into the player's facts, leaving the sentences alone. */
  function LoadFromSentence(ai: AI, s: Sentence): AI
  {
    ai.(safes := ai.safes + s.safes, mines := ai.mines + s.mines)
  }

  /** Cell-by-cell copy of a sentence's learned safes, then its learned mines, into the
      player's facts. */
  method LoadFromSentenceToAI(ai: AI, s: Sentence) returns (r: AI)
    ensures r == LoadFromSentence(ai, s)
  {
    r := ai;
    var todo := s.safes;
    while todo != {}
      invariant todo <= s.safes
      invariant r == ai.(safes := ai.safes + (s.safes - todo))
      decreases todo
    {
      var c :| c in todo;
      r := r.(safes := r.safes + {c});
      todo := todo - {c};
    }
    todo := s.mines;
    while todo != {}
      invariant todo <= s.mines
      invariant r == ai.(safes := ai.safes + s.safes, mines := ai.mines + (s.mines - todo))
      decreases todo
    {
      var c :| c in todo;
      r := r.(mines := r.mines + {c});
      todo := todo - {c};
    }
  }

  /** Every sentence of `kb` is the matching sentence of `kb0` with the cells of `done` marked mines. */
  predicate MinesMarked(kb0: seq<Sentence>, kb: seq<Sentence>, done: set<Cell>)
  {
    |kb| == |kb0| && forall i :: 0 <= i < |kb0| ==> kb[i] == MarkMines(kb0[i], done)
  }

  /** Every sentence of `kb` is the matching sentence of `kb0` with the cells of `done` marked safe. */
  predicate SafesMarked(kb0: seq<Sentence>, kb: seq<Sentence>, done: set<Cell>)
  {
    |kb| == |kb0| && forall i :: 0 <= i < |kb0| ==> kb[i] == MarkSafes(kb0[i], done)
  }

  lemma MinesMarkedStep(kb0: seq<Sentence>, kb: seq<Sentence>, done: set<Cell>, c: Cell)
    requires MinesMarked(kb0, kb, done) && c !in done
    ensures MinesMarked(kb0, MarkMineInAll(kb, c), done + {c})
  {
    forall i | 0 <= i < |kb0|
      ensures MarkMineInAll(kb, c)[i] == MarkMines(kb0[i], done + {c})
    {
      MarkMinesStep(kb0[i], done, c);
    }
  }

  lemma SafesMarkedStep(kb0: seq<Sentence>, kb: seq<Sentence>, done: set<Cell>, c: Cell)
    requires SafesMarked(kb0, kb, done)
    ensures SafesMarked(kb0, MarkSafeInAll(kb, c), done + {c})
  {
    forall i | 0 <= i < |kb0|
      ensures MarkSafeInAll(kb, c)[i] == MarkSafes(kb0[i], done + {c})
    {
      MarkSafesStep(kb0[i], done, c);
    }
  }

  lemma NothingMarked(kb: seq<Sentence>)
    ensures MinesMarked(kb, kb, {}) && SafesMarked(kb, kb, {})
  {
    forall i | 0 <= i < |kb|
      ensures kb[i] == MarkMines(kb[i], {}) && kb[i] == MarkSafes(kb[i], {})
    {
      MarkNothing(kb[i]);
    }
  }

  /** `mark_safe_global` applied to each cell of `cs` in turn. */
  method MarkSafesGlobal(ai: AI, cs: set<Cell>) returns (r: AI)
    ensures r.safes == ai.safes + cs && r.mines == ai.mines
    ensures r.movesMade == ai.movesMade && r.height == ai.height && r.width == ai.width
    ensures |r.knowledge| == |ai.knowledge|
    ensures forall i :: 0 <= i < |ai.knowledge| ==> r.knowledge[i] == MarkSafes(ai.knowledge[i], cs)
  {
    r := ai;
    var todo := cs;
    ghost var done: set<Cell> := {};
    NothingMarked(ai.knowledge);
    while todo != {}
      invariant todo <= cs && done == cs - todo
      invariant r.safes == ai.safes + done && r.mines == ai.mines
      invariant r.movesMade == ai.movesMade && r.height == ai.height && r.width == ai.width
      invariant SafesMarked(ai.knowledge, r.knowledge, done)
      decreases todo
    {
      var c :| c in todo;
      SafesMarkedStep(ai.knowledge, r.knowledge, done, c);
      r := MarkSafeGlobal(r, c);
      todo := todo - {c};
      done := done + {c};
    }
    assert done == cs;
  }

  /** `mark_mine_global` applied to each cell of `cs` in turn. */
  method MarkMinesGlobal(ai: AI, cs: set<Cell>) returns (r: AI)
    ensures r.mines == ai.mines + cs && r.safes == ai.safes
    ensures r.movesMade == ai.movesMade && r.height == ai.height && r.width == ai.width
    ensures |r.knowledge| == |ai.knowledge|
    ensures forall i :: 0 <= i < |ai.knowledge| ==> r.knowledge[i] == MarkMines(ai.knowledge[i], cs)
  {
    r := ai;
    var todo := cs;
    ghost var done: set<Cell> := {};
    NothingMarked(ai.knowledge);
    while todo != {}
      invariant todo <= cs && done == cs - todo
      invariant r.mines == ai.mines + done && r.safes == ai.safes
      invariant r.movesMade == ai.movesMade && r.height == ai.height && r.width == ai.width
      invariant MinesMarked(ai.knowledge, r.knowledge, done)
      decreases todo
    {
      var c :| c in todo;
      MinesMarkedStep(ai.knowledge, r.knowledge, done, c);
      r := MarkMineGlobal(r, c);
      todo := todo - {c};
      done := done + {c};
    }
    assert done == cs;
  }

  /** Global marking of a sentence's learned safes, then its learned mines: every sentence
      held loses those cells, and loses one mine from its count for each learned mine it
      still contained once the learned safes were gone. */
  method LoadFromSentenceToEverywhere(ai: AI, s: Sentence) returns (r: AI)
    ensures r.safes == ai.safes + s.safes && r.mines == ai.mines + s.mines
    ensures r.movesMade == ai.movesMade && r.height == ai.height && r.width == ai.width
    ensures |r.knowledge| == |ai.knowledge|
    ensures forall i :: 0 <= i < |ai.knowledge| ==>
      r.knowledge[i].cells == ai.knowledge[i].cells - s.safes - s.mines &&
      r.knowledge[i].count == ai.knowledge[i].count - |Among(ai.knowledge[i].cells - s.safes, s.mines)|
  {
    r := MarkSafesGlobal(ai, s.safes);
    r := MarkMinesGlobal(r, s.mines);
  }
}

=== FILE: board.dfy ===
/** The game board: a grid of booleans with the set of mine cells it encodes. */
module Board {

  import opened Cells

  /** `board[i][j]` is true exactly at the mines; `minesFound` is the set the player flagged. */
  datatype Game = Game(height: int, width: int, board: seq<seq<bool>>, mines: set<Cell>, minesFound: set<Cell>)

  /** The shape the constructor builds: `height` rows of `width` flags agreeing with `mines`. */
  predicate WellFormed(g: Game)
  {
    && 0 <= g.height && 0 <= g.width
    && |g.board| == g.height
    && (forall i :: 0 <= i < g.height ==> |g.board[i]| == g.width)
    && (forall i, j {:trigger g.board[i][j]} :: 0 <= i < g.height && 0 <= j < g.width ==> (g.board[i][j] <==> (i, j) in g.mines))
    && (forall p :: p in g.mines ==> InGrid(g.height, g.width, p))
  }

  /** The mines the nearby-mines loops have counted before reaching row `i`, column `j`. */
  function CountedMines(g: Game, cell: Cell, i: int, j: int): set<Cell>
  {
    set p | p in Scanned(g.height, g.width, cell, i, j) && p != cell && p in g.mines
  }

  /** 1 when the nearby-mines loops count the cell at row `i`, column `j`, else 0. */
  function Hit(g: Game, cell: Cell, i: int, j: int): nat
    requires WellFormed(g)
  {
    if (i, j) != cell && 0 <= i < g.height && 0 <= j < g.width && g.board[i][j] then 1 else 0
  }

  /** The count the nearby-mines loops hold on reaching row `i`, column `j` of the box. */
  function CountBefore(g: Game, cell: Cell, i: int, j: int): nat
    requires WellFormed(g)
    requires cell.0 - 1 <= i <= cell.0 + 2 && cell.1 - 1 <= j <= cell.1 + 2
    decreases 4 * (i - cell.0 + 1) + (j - cell.1 + 1)
  {
    if j > cell.1 - 1 then CountBefore(g, cell, i, j - 1) + Hit(g, cell, i, j - 1)
    else if i > cell.0 - 1 then CountBefore(g, cell, i - 1, cell.1 + 2)
    else 0
  }

  /** One step of the inner loop counts the cell it looks at exactly when that cell is an
      in-grid mine other than `cell`. */
  lemma CountedMinesStep(g: Game, cell: Cell, i: int, j: int)
    requires WellFormed(g)
    requires cell.0 - 1 <= i <= cell.0 + 1 && cell.1 - 1 <= j <= cell.1 + 1
    ensures |CountedMines(g, cell, i, j + 1)| == |CountedMines(g, cell, i, j)| + Hit(g, cell, i, j)
  {
    ScannedStep(g.height, g.width, cell, i, j);
    var before := CountedMines(g, cell, i, j);
    var after := CountedMines(g, cell, i, j + 1);
    if Hit(g, cell, i, j) == 1 {
      assert after == before + {(i, j)};
      assert (i, j) !in before;
    } else {
      assert after == before;
    }
  }

  lemma CountedMinesRowEnd(g: Game, cell: Cell, i: int)
    ensures CountedMines(g, cell, i, cell.1 + 2) == CountedMines(g, cell, i + 1, cell.1 - 1)
  {
    ScannedRowEnd(g.height, g.width, cell, i);
  }

  lemma CountedMinesStart(g: Game, cell: Cell)
    ensures |CountedMines(g, cell, cell.0 - 1, cell.1 - 1)| == 0
  {
    ScannedStart(g.height, g.width, cell);
  }

  lemma CountBeforeColumnStep(g: Game, cell: Cell, i: int, j: int)
    requires WellFormed(g)
    requires cell.0 - 1 <= i <= cell.0 + 1 && cell.1 - 1 < j <= cell.1 + 2
    requires CountBefore(g, cell, i, j - 1) == |CountedMines(g, cell, i, j - 1)|
    ensures CountBefore(g, cell, i, j) == |CountedMines(g, cell, i, j)|
  {
    assert CountBefore(g, cell, i, j) == CountBefore(g, cell, i, j - 1) + Hit(g, cell, i, j - 1);
    CountedMinesStep(g, cell, i, j - 1);
  }

  lemma CountBeforeRowStep(g: Game, cell: Cell, i: int)
    requires WellFormed(g)
    requires cell.0 - 1 < i <= cell.0 + 2
    requires CountBefore(g, cell, i - 1, cell.1 + 2) == |CountedMines(g, cell, i - 1, cell.1 + 2)|
    ensures CountBefore(g, cell, i, cell.1 - 1) == |CountedMines(g, cell, i, cell.1 - 1)|
  {
    assert CountBefore(g, cell, i, cell.1 - 1) == CountBefore(g, cell, i - 1, cell.1 + 2);
    CountedMinesRowEnd(g, cell, i - 1);
  }

  /** The running count of the loops is the number of mines among the cells they visited. */
  lemma {:induction false} CountBeforeIsCounted(g: Game, cell: Cell, i: int, j: int)
    requires WellFormed(g)
    requires cell.0 - 1 <= i <= cell.0 + 2 && cell.1 - 1 <= j <= cell.1 + 2
    requires i == cell.0 + 2 ==> j == cell.1 - 1
    ensures CountBefore(g, cell, i, j) == |CountedMines(g, cell, i, j)|
    decreases 4 * (i - cell.0 + 1) + (j - cell.1 + 1)
  {
    if j > cell.1 - 1 {
      CountBeforeIsCounted(g, cell, i, j - 1);
      CountBeforeColumnStep(g, cell, i, j);
    } else if i > cell.0 - 1 {
      CountBeforeIsCounted(g, cell, i - 1, cell.1 + 2);
      CountBeforeRowStep(g, cell, i);
    } else {
      CountedMinesStart(g, cell);
    }
  }

  lemma CountedMinesAll(g: Game, cell: Cell)
    ensures CountedMines(g, cell, cell.0 + 2, cell.1 - 1) == NeighbourCells(g.height, g.width, cell) * g.mines
    ensures |CountedMines(g, cell, cell.0 + 2, cell.1 - 1)| <= 8
  {
    ScannedAll(g.height, g.width, cell);
    NeighbourCellsAtMostEight(g.height, g.width, cell);
    SubsetCardinality(NeighbourCells(g.height, g.width, cell) * g.mines, NeighbourCells(g.height, g.width, cell));
  }

  /** Number of mines among the in-grid neighbours of `cell`; `cell` itself may be off the grid. */
  method NearbyMines(g: Game, cell: Cell) returns (count: nat)
    requires WellFormed(g)
    ensures count == |NeighbourCells(g.height, g.width, cell) * g.mines|
    ensures count <= 8
  {
    count := 0;
    var i := cell.0 - 1;
    while i < cell.0 + 2
      invariant cell.0 - 1 <= i <= cell.0 + 2
      invariant count == CountBefore(g, cell, i, cell.1 - 1)
    {
      var j := cell.1 - 1;
      while j < cell.1 + 2
        invariant cell.1 - 1 <= j <= cell.1 + 2
        invariant count == CountBefore(g, cell, i, j)
      {
        if (i, j) == cell {
          // the cell itself is not one of its own neighbours
        } else if 0 <= i < g.height && 0 <= j < g.width {
          if g.board[i][j] {
            count := count + 1;
          }
        }
        j := j + 1;
      }
      i := i + 1;
    }
    CountBeforeIsCounted(g, cell, i, cell.1 - 1);
    CountedMinesAll(g, cell);
  }

  /** The game is won when the flagged cells are exactly the mines. */
  predicate Won(g: Game)
  {
    g.minesFound == g.mines
  }

  /** With no false flags, the game is won exactly when as many cells are flagged as there are mines. */
  lemma WonByCount(g: Game)
    requires g.minesFound <= g.mines
    ensures Won(g) <==> |g.minesFound| == |g.mines|
  {
    SubsetCardinality(g.minesFound, g.mines);
  }
}

=== FILE: cells.dfy ===
/** Board coordinates and the 3x3 neighbourhood scans shared by the board and the player,
    with two general facts about finite sets (`EmptyDifference`, `SubsetCardinality`)
    that the other modules use. */
module Cells {

  /** A (row, column) pair; rows and columns may be any integer, the grid decides validity. */
  type Cell = (int, int)

  predicate InGrid(height: int, width: int, c: Cell)
  {
    0 <= c.0 < height && 0 <= c.1 < width
  }

  /** `p` lies within one row and one column of `c` and is not `c` itself. */
  predicate Adjacent(c: Cell, p: Cell)
  {
    c.0 - 1 <= p.0 <= c.0 + 1 && c.1 - 1 <= p.1 <= c.1 + 1 && p != c
  }

  /** The nine cells within one row and one column of `c`, `c` included. */
  function Window(c: Cell): set<Cell>
  {
    var (y, x) := c;
    {(y - 1, x - 1), (y - 1, x), (y - 1, x + 1),
     (y, x - 1), (y, x), (y, x + 1),
     (y + 1, x - 1), (y + 1, x), (y + 1, x + 1)}
  }

  lemma WindowMembership(c: Cell, p: Cell)
    ensures p in Window(c) <==> c.0 - 1 <= p.0 <= c.0 + 1 && c.1 - 1 <= p.1 <= c.1 + 1
  {
  }

  /** The in-grid cells of the 3x3 box around `c` (including `c`). */
  function Box(height: int, width: int, c: Cell): set<Cell>
  {
    set p | p in Window(c) && InGrid(height, width, p)
  }

  /** The in-grid neighbours of `c`: its box without `c` itself. */
  function NeighbourCells(height: int, width: int, c: Cell): set<Cell>
  {
    Box(height, width, c) - {c}
  }

  /** Every cell of a `height` x `width` grid. */
  function AllCells(height: int, width: int): set<Cell>
  {
    set y, x | 0 <= y < height && 0 <= x < width :: (y, x)
  }

  /** The cells of `Box` that two nested row-major loops over the box have visited
      before reaching row `i`, column `j`. */
  function Scanned(height: int, width: int, c: Cell, i: int, j: int): set<Cell>
  {
    set p | p in Box(height, width, c) && (p.0 < i || (p.0 == i && p.1 < j))
  }

  lemma ScannedStart(height: int, width: int, c: Cell)
    ensures Scanned(height, width, c, c.0 - 1, c.1 - 1) == {}
  {
    forall p | p in Box(height, width, c)
      ensures c.0 - 1 <= p.0
    {
      WindowMembership(c, p);
    }
  }

  /** One step of the inner loop adds at most the cell the loop is looking at. */
  lemma ScannedStep(height: int, width: int, c: Cell, i: int, j: int)
    requires c.0 - 1 <= i <= c.0 + 1 && c.1 - 1 <= j <= c.1 + 1
    ensures InGrid(height, width, (i, j)) ==>
      Scanned(height, width, c, i, j + 1) == Scanned(height, width, c, i, j) + {(i, j)}
    ensures !InGrid(height, width, (i, j)) ==>
      Scanned(height, width, c, i, j + 1) == Scanned(height, width, c, i, j)
    ensures (i, j) !in Scanned(height, width, c, i, j)
  {
    var a := Scanned(height, width, c, i, j + 1);
    var b := Scanned(height, width, c, i, j);
    if InGrid(height, width, (i, j)) {
      assert (i, j) in a;
      assert a == b + {(i, j)};
    } else {
      assert a == b;
    }
  }

  /** Finishing a row of the box is the same as starting the next one. */
  lemma ScannedRowEnd(height: int, width: int, c: Cell, i: int)
    ensures Scanned(height, width, c, i, c.1 + 2) == Scanned(height, width, c, i + 1, c.1 - 1)
  {
  }

  /** After the last row every in-grid cell of the box has been visited. */
  lemma ScannedAll(height: int, width: int, c: Cell)
    ensures Scanned(height, width, c, c.0 + 2, c.1 - 1) == Box(height, width, c)
  {
  }

  lemma EmptyDifference<T>(a: set<T>, b: set<T>)
    ensures a - b == {} <==> a <= b
  {
    if a - b == {} {
      assert forall x :: x in a ==> x !in a - b;
    }
  }

  /** A subset is no larger than its superset, and equal when of the same size. */
  lemma SubsetCardinality<T>(a: set<T>, b: set<T>)
    requires a <= b
    ensures |a| <= |b|
    ensures |a| == |b| ==> a == b
  {
    var d := b - a;
    assert b == a + d;
    assert a !! d;
    if |a| == |b| {
      assert |d| == 0;
    }
  }

  /** Membership in the neighbourhood is exactly adjacency inside the grid. */
  lemma NeighbourCellsMembership(height: int, width: int, c: Cell, p: Cell)
    ensures p in NeighbourCells(height, width, c) <==> Adjacent(c, p) && InGrid(height, width, p)
  {
    if Adjacent(c, p) && InGrid(height, width, p) {
      assert p == (p.0, p.1);
      assert p in Box(height, width, c);
    }
  }

  /** A cell has at most eight neighbours. */
  lemma NeighbourCellsAtMostEight(height: int, width: int, c: Cell)
    ensures |NeighbourCells(height, width, c)| <= 8
  {
    var (y, x) := c;
    var ring: set<Cell> := {(y - 1, x - 1), (y - 1, x), (y - 1, x + 1),
                            (y, x - 1), (y, x + 1),
                            (y + 1, x - 1), (y + 1, x), (y + 1, x + 1)};
    assert |ring| == 8;
    assert NeighbourCells(height, width, c) <= ring;
    SubsetCardinality(NeighbourCells(height, width, c), ring);
  }

  /** The grid enumeration holds exactly the in-grid cells. */
  lemma AllCellsMembership(height: int, width: int, p: Cell)
    ensures p in AllCells(height, width) <==> InGrid(height, width, p)
  {
    if InGrid(height, width, p) {
      assert p == (p.0, p.1);
    }
  }
}

=== FILE: inference.dfy ===
/** Single-sentence reasoning: shortening a sentence against the player's known facts,
    the two trivial inference rules, and the subset rule relating two sentences. */
module Inference {

  import opened Wrappers
  import opened Cells
  import opened Sentences
  import opened AIState

  /** Rebuild a sentence without the cells already known to be safe or mines, taking the
      known mines off its count. `None` stands for the source's `False`: nothing to shorten,
      an empty input, an empty result, or a result equal to the input. */
  function Shorten(s: Sentence, safes: set<Cell>, mines: set<Cell>): (r: Option<Sentence>)
    ensures r.None? <==>
      s.cells == {} || (s.cells !! safes && s.cells !! mines) || s.cells - mines - safes == {}
    ensures r.Some? ==>
      && r.value.cells == s.cells - mines - safes
      && r.value.cells != {}
      && r.value.cells < s.cells
      && r.value.count == s.count - |Among(s.cells, mines)|
      && r.value.mines == {} && r.value.safes == {}
  {
    if s.cells == {} then None
    else
      var safeCells := Among(s.cells, safes);
      var mineCells := Among(s.cells, mines);
      if safeCells == {} && mineCells == {} then
        assert s.cells !! safes && s.cells !! mines by {
          assert forall c :: c in s.cells && c in safes ==> c in safeCells;
          assert forall c :: c in s.cells && c in mines ==> c in mineCells;
        }
        None
      else
        var cells := s.cells - mineCells - safeCells;
        assert cells == s.cells - mines - safes;
        if cells == {} then None
        else
          var t := NewSentence(cells, s.count - |mineCells|);
          assert cells < s.cells by {
            assert safeCells + mineCells != {};
            var c :| c in safeCells + mineCells;
            assert c in s.cells && c !in cells;
          }
          if SameStatement(t, s) then None else Some(t)
  }

  /** Shortening a shortened sentence against the same facts finds nothing more to remove. */
  lemma ShortenIdempotent(s: Sentence, safes: set<Cell>, mines: set<Cell>)
    requires Shorten(s, safes, mines).Some?
    ensures Shorten(Shorten(s, safes, mines).value, safes, mines).None?
  {
    var t := Shorten(s, safes, mines).value;
    assert t.cells !! safes && t.cells !! mines;
  }

  /** The player state and the sentence after the trivial inference rules. */
  datatype Inferred = Inferred(ai: AI, s: Sentence)

  /** The trivial rules: a non-empty sentence whose count equals its size is all mines, one
      whose count is zero is all safe. Each cell goes to the player's facts and to the
      sentence's learned sets; then the sentence's learned sets are copied to the player. */
  function InferTrivial(ai: AI, s: Sentence): (r: Inferred)
    ensures r.ai.height == ai.height && r.ai.width == ai.width
    ensures r.ai.movesMade == ai.movesMade && r.ai.knowledge == ai.knowledge
    ensures s.cells == {} ==> r == Inferred(ai, s)
    ensures s.cells != {} && s.count == |s.cells| ==>
      s.cells <= r.ai.mines && s.cells <= KnownMines(r.s) && r.s.cells == {} && r.s.count == 0
    ensures s.cells != {} && s.count == 0 ==>
      s.cells <= r.ai.safes && s.cells <= KnownSafes(r.s) && r.s.cells == {} && r.s.count == 0
    ensures s.count != 0 && s.count != |s.cells| ==> r == Inferred(ai, s)
    ensures ai.mines <= r.ai.mines <= ai.mines + s.cells + s.mines
    ensures ai.safes <= r.ai.safes <= ai.safes + s.cells + s.safes
    ensures r.s.cells <= s.cells
    ensures r.s.cells == {} || (r.s.count != 0 && r.s.count != |r.s.cells|)
  {
    if s.cells == {} then Inferred(ai, s)
    else if s.count == |s.cells| then
      assert Among(s.cells, s.cells) == s.cells;
      var t := MarkMines(s, s.cells);
      Inferred(LoadFromSentence(ai.(mines := ai.mines + s.cells), t), t)
    else if s.count == 0 then
      var t := MarkSafes(s, s.cells);
      Inferred(LoadFromSentence(ai.(safes := ai.safes + s.cells), t), t)
    else Inferred(ai, s)
  }

  /** The loop marking every cell of the sentence a mine, in the player and in the sentence. */
  method MarkEachMine(ai: AI, s: Sentence) returns (ai': AI, s': Sentence)
    ensures s' == MarkMines(s, s.cells)
    ensures ai' == ai.(mines := ai.mines + s.cells)
  {
    ai', s' := ai, s;
    var todo := s.cells;
    ghost var done: set<Cell> := {};
    MarkNothing(s);
    while todo != {}
      invariant todo <= s.cells && done == s.cells - todo
      invariant s' == MarkMines(s, done)
      invariant ai' == ai.(mines := ai.mines + done)
      decreases todo
    {
      var c :| c in todo;
      MarkMinesStep(s, done, c);
      // mark_mine_for_AI_and_sentence
      ai' := ai'.(mines := ai'.mines + {c});
      s' := MarkMine(s', c);
      todo := todo - {c};
      done := done + {c};
    }
    assert done == s.cells;
  }

  /** The loop marking every cell of the sentence safe, in the player and in the sentence. */
  method MarkEachSafe(ai: AI, s: Sentence) returns (ai': AI, s': Sentence)
    ensures s' == MarkSafes(s, s.cells)
    ensures ai' == ai.(safes := ai.safes + s.cells)
  {
    ai', s' := ai, s;
    var todo := s.cells;
    ghost var done: set<Cell> := {};
    MarkNothing(s);
    while todo != {}
      invariant todo <= s.cells && done == s.cells - todo
      invariant s' == MarkSafes(s, done)
      invariant ai' == ai.(safes := ai.safes + done)
      decreases todo
    {
      var c :| c in todo;
      MarkSafesStep(s, done, c);
      // mark_safe_for_AI_and_sentence
      ai' := ai'.(safes := ai'.safes + {c});
      s' := MarkSafe(s', c);
      todo := todo - {c};
      done := done + {c};
    }
    assert done == s.cells;
  }

  /** The trivial rules as the source runs them: a loop marking each cell a mine, then (the
      count read again) a loop marking each remaining cell safe, then the cell-by-cell copy
      of the sentence's learned sets into the player's facts. */
  method InferTrivialStepwise(ai: AI, s: Sentence) returns (ai': AI, s': Sentence)
    ensures Inferred(ai', s') == InferTrivial(ai, s)
  {
    ai', s' := ai, s;
    if s.cells == {} {
      return;
    }
    var inferred := false;
    if s'.count == |s'.cells| {
      inferred := true;
      ai', s' := MarkEachMine(ai', s');
      assert Among(s.cells, s.cells) == s.cells;
    }
    if s'.count == 0 {
      inferred := true;
      ghost var s0, ai0 := s', ai';
      ai', s' := MarkEachSafe(ai', s');
      if s0 != s {
        // the mines loop ran first and left no cells
        MarkNothing(s0);
        assert s' == s0 && ai' == ai0;
      }
    }
    if inferred {
      ai' := LoadFromSentenceToAI(ai', s');
    }
  }

  /** The player state after shortening and inference, the sentence inference ran on, and
      whether that was the passed sentence itself (shortening found nothing) rather than a
      fresh shortened copy. */
  datatype Step = Step(ai: AI, result: Sentence, inPlace: bool)
  {
    /** The value the passed sentence holds afterwards: inference changed it only when it
        ran on it in place. */
    function Passed(s: Sentence): Sentence
    {
      if inPlace then result else s
    }
  }

  /** The sentence the trivial rules run on: the shortened copy, or `s` itself when
      shortening gives `False`. */
  function Target(ai: AI, s: Sentence): Sentence
  {
    match Shorten(s, ai.safes, ai.mines)
    case Some(t) => t
    case None => s
  }

  /** Shorten a sentence if possible, then run the trivial rules on whichever sentence
      resulted. */
  function ShortenAndInfer(ai: AI, s: Sentence): (r: Step)
    ensures r.ai.height == ai.height && r.ai.width == ai.width
    ensures r.ai.movesMade == ai.movesMade && r.ai.knowledge == ai.knowledge
    ensures r.inPlace <==> Shorten(s, ai.safes, ai.mines).None?
    ensures ai.mines <= r.ai.mines && ai.safes <= r.ai.safes
    ensures r.result.cells <= s.cells
    ensures !r.inPlace ==> r.result.cells < s.cells && r.result.cells !! ai.safes && r.result.cells !! ai.mines
    ensures r.result.cells == {} || (r.result.count != 0 && r.result.count != |r.result.cells|)
  {
    var sh := Shorten(s, ai.safes, ai.mines);
    var target := if sh.Some? then sh.value else s;
    var inf := InferTrivial(ai, target);
    Step(inf.ai, inf.s, sh.None?)
  }

  /** What shortening and inference learn. A full count makes every cell of the sentence
      the rules ran on a known mine, and a zero count makes them all known safe; either way
      that sentence is left empty. When neither rule applies nothing is learned and the
      result is that sentence unchanged. No other cell becomes a fact. */
  lemma ShortenAndInferLearns(ai: AI, s: Sentence)
    ensures var t := Target(ai, s); var r := ShortenAndInfer(ai, s);
      t.cells != {} && t.count == |t.cells| ==> t.cells <= r.ai.mines && r.result.cells == {}
    ensures var t := Target(ai, s); var r := ShortenAndInfer(ai, s);
      t.cells != {} && t.count == 0 ==> t.cells <= r.ai.safes && r.result.cells == {}
    ensures var t := Target(ai, s); var r := ShortenAndInfer(ai, s);
      t.cells == {} || (t.count != 0 && t.count != |t.cells|) ==> r.result == t && r.ai == ai
    ensures var t := Target(ai, s); var r := ShortenAndInfer(ai, s);
      r.ai.mines <= ai.mines + t.cells + t.mines && r.ai.safes <= ai.safes + t.cells + t.safes
  {
  }

  /** Shortening and inference would leave `s` as it is: none of its cells is a known fact
      and neither trivial rule applies. */
  predicate Settled(ai: AI, s: Sentence)
  {
    s.cells !! ai.safes && s.cells !! ai.mines && (s.cells == {} || (s.count != 0 && s.count != |s.cells|))
  }

  /** A settled sentence passes through shortening and inference untouched, in place, and
      the player learns nothing from it. */
  lemma SettledUnchanged(ai: AI, s: Sentence)
    requires Settled(ai, s)
    ensures ShortenAndInfer(ai, s) == Step(ai, s, true)
  {
    assert Target(ai, s) == s;
    ShortenAndInferLearns(ai, s);
  }

  /** The subset rule between two sentences, in the order the source tests it: when one's
      cells are a proper subset of the other's, the difference of the cells holds the
      difference of the counts. Equal cell sets and unrelated cell sets give nothing. */
  function Derive(s1: Sentence, s2: Sentence): (r: Option<Sentence>)
    ensures r.None? <==> !(s2.cells < s1.cells) && !(s1.cells < s2.cells)
    ensures r.Some? && s2.cells < s1.cells ==>
      r.value == NewSentence(s1.cells - s2.cells, s1.count - s2.count)
    ensures r.Some? && s1.cells < s2.cells ==>
      r.value == NewSentence(s2.cells - s1.cells, s2.count - s1.count)
    ensures r.Some? ==> r.value.cells != {}
  {
    EmptyDifference(s1.cells, s2.cells);
    EmptyDifference(s2.cells, s1.cells);
    var first := s2.cells <= s1.cells;
    if first && s1.cells - s2.cells == {} then
      None
    else
      var second := s1.cells <= s2.cells;
      if second && s2.cells - s1.cells == {} then
        None
      else if second then
        Some(NewSentence(s2.cells - s1.cells, s2.count - s1.count))
      else if first then
        Some(NewSentence(s1.cells - s2.cells, s1.count - s2.count))
      else
        None
  }
}

=== FILE: knowledge.dfy ===
/** The knowledge base: combining sentences by the subset rule, re-running the trivial rules
    over every stored sentence, and taking in a new observation from the board. */
module Knowledge {

  import opened Wrappers
  import opened Cells
  import opened Sentences
  import opened AIState
  import opened Inference

  /** The player state after scanning part of the knowledge, and what the scan derived. */
  datatype Scan = Scan(ai: AI, derived: seq<Sentence>)

  /** The generator skips a stored sentence `s2` equal to `s1`, and every pair with an
      empty side. */
  predicate Skipped(s2: Sentence, s1: Sentence)
  {
    SameStatement(s2, s1) || s1.cells == {} || s2.cells == {}
  }

  /** Stored sentences only shrink: each keeps its place and loses cells, never gains any. */
  predicate OnlyShrinks(before: seq<Sentence>, after: seq<Sentence>)
  {
    |before| <= |after| && forall i :: 0 <= i < |before| ==> after[i].cells <= before[i].cells
  }

  /** Shorten and infer the stored sentence at slot `j`, writing it back when that happened
      in place; every other slot is left alone. Gives the new state and the sentence
      inference ran on. */
  function InferStored(ai: AI, j: nat): (r: Inferred)
    requires j < |ai.knowledge|
    ensures |r.ai.knowledge| == |ai.knowledge| && r.ai.knowledge[j].cells <= ai.knowledge[j].cells
    ensures forall i :: 0 <= i < |ai.knowledge| && i != j ==> r.ai.knowledge[i] == ai.knowledge[i]
    ensures r.ai.height == ai.height && r.ai.width == ai.width && r.ai.movesMade == ai.movesMade
    ensures ai.mines <= r.ai.mines && ai.safes <= r.ai.safes
    ensures r.s.cells <= ai.knowledge[j].cells
  {
    var s := ai.knowledge[j];
    var st := ShortenAndInfer(ai, s);
    Inferred(st.ai.(knowledge := ai.knowledge[j := st.Passed(s)]), st.result)
  }

  /** The slot is written back exactly as the source's in-place semantics say: a shortened
      copy leaves the stored sentence as it was, and inference on the stored sentence itself
      leaves the slot holding the result. */
  lemma InferStoredWritesBack(ai: AI, j: nat)
    requires j < |ai.knowledge|
    ensures Shorten(ai.knowledge[j], ai.safes, ai.mines).Some? ==> InferStored(ai, j).ai.knowledge[j] == ai.knowledge[j]
    ensures Shorten(ai.knowledge[j], ai.safes, ai.mines).None? ==> InferStored(ai, j).ai.knowledge[j] == InferStored(ai, j).s
  {
  }

  /** Inference on a shortened copy leaves the knowledge as it was. */
  lemma InferStoredOnCopy(ai: AI, j: nat)
    requires j < |ai.knowledge| && Shorten(ai.knowledge[j], ai.safes, ai.mines).Some?
    ensures InferStored(ai, j) == Inferred(ShortenAndInfer(ai, ai.knowledge[j]).ai, ShortenAndInfer(ai, ai.knowledge[j]).result)
  {
    assert ai.knowledge[j := ai.knowledge[j]] == ai.knowledge;
  }

  /** What the subset rule adds to the generator's results for one pair: the derived
      sentence, or nothing. */
  function Derived(s1: Sentence, s2: Sentence): (r: seq<Sentence>)
    ensures |r| <= 1 && (r == [] <==> Derive(s1, s2).None?)
    ensures forall d :: d in r ==> d.cells != {} && (d.cells <= s1.cells || d.cells !! s1.cells)
  {
    match Derive(s1, s2)
    case Some(d) => [d]
    case None => []
  }

  lemma OnlyShrinksTransitive(a: seq<Sentence>, b: seq<Sentence>, c: seq<Sentence>)
    requires OnlyShrinks(a, b) && OnlyShrinks(b, c)
    ensures OnlyShrinks(a, c)
  {
  }

  /** The scan of `knowledge[j..]` made by the sub-sentence generator for `s1`. A stored
      sentence equal to `s1` is skipped, and so is every pair with empty cells on either
      side; any other stored sentence is shortened and inferred (written back when that
      happened in place) and then paired with `s1` by the subset rule. */
  function SubSentencesFrom(ai: AI, s1: Sentence, j: nat): (r: Scan)
    requires j <= |ai.knowledge|
    ensures |r.ai.knowledge| == |ai.knowledge| && OnlyShrinks(ai.knowledge, r.ai.knowledge)
    ensures r.ai.height == ai.height && r.ai.width == ai.width && r.ai.movesMade == ai.movesMade
    ensures ai.mines <= r.ai.mines && ai.safes <= r.ai.safes
    decreases |ai.knowledge| - j
  {
    if j == |ai.knowledge| then Scan(ai, [])
    else
      var s2 := ai.knowledge[j];
      if Skipped(s2, s1) then
        SubSentencesFrom(ai, s1, j + 1)
      else
        var st := InferStored(ai, j);
        var rest := SubSentencesFrom(st.ai, s1, j + 1);
        OnlyShrinksTransitive(ai.knowledge, st.ai.knowledge, rest.ai.knowledge);
        Scan(rest.ai, Derived(s1, st.s) + rest.derived)
  }


  /** The scan derives at most one sentence per slot scanned, each non-empty and either
      inside or disjoint from the generating sentence's cells. Each is what the subset rule
      gives for `s1` and some sentence within a stored sentence of the slots scanned. */
  lemma {:induction false} SubSentencesFromDerives(ai: AI, s1: Sentence, j: nat)
    requires j <= |ai.knowledge|
    ensures |SubSentencesFrom(ai, s1, j).derived| <= |ai.knowledge| - j
    ensures forall d :: d in SubSentencesFrom(ai, s1, j).derived ==>
      d.cells != {} && (d.cells <= s1.cells || d.cells !! s1.cells)
    ensures forall d :: d in SubSentencesFrom(ai, s1, j).derived ==>
      exists k: int, t: Sentence :: j <= k < |ai.knowledge| && t.cells <= ai.knowledge[k].cells && Derive(s1, t) == Some(d)
    decreases |ai.knowledge| - j
  {
    if j < |ai.knowledge| {
      var s2 := ai.knowledge[j];
      if Skipped(s2, s1) {
        SubSentencesFromDerives(ai, s1, j + 1);
        assert SubSentencesFrom(ai, s1, j) == SubSentencesFrom(ai, s1, j + 1);
      } else {
        var st := InferStored(ai, j);
        SubSentencesFromDerives(st.ai, s1, j + 1);
        var rest := SubSentencesFrom(st.ai, s1, j + 1);
        assert SubSentencesFrom(ai, s1, j).derived == Derived(s1, st.s) + rest.derived;
        forall d | d in SubSentencesFrom(ai, s1, j).derived
          ensures exists k: int, t: Sentence :: j <= k < |ai.knowledge| && t.cells <= ai.knowledge[k].cells && Derive(s1, t) == Some(d)
        {
          if d in Derived(s1, st.s) {
            assert j <= j < |ai.knowledge| && st.s.cells <= ai.knowledge[j].cells && Derive(s1, st.s) == Some(d);
          } else {
            var k: int, t: Sentence :| j + 1 <= k < |ai.knowledge| && t.cells <= st.ai.knowledge[k].cells && Derive(s1, t) == Some(d);
            assert st.ai.knowledge[k] == ai.knowledge[k];
          }
        }
      }
    }
  }

  /** `d` is what the subset rule gives for `s1` and the stored sentence of some slot of
      `kb` from `j` on, not skipped, as shortening and inference leave it against facts held
      at some point between `lo` and `hi`. */
  ghost predicate DerivedAt(kb: seq<Sentence>, s1: Sentence, j: nat, lo: AI, hi: AI, d: Sentence)
  {
    exists k: int, a: AI ::
      && j <= k < |kb| && !Skipped(kb[k], s1)
      && lo.mines <= a.mines && lo.safes <= a.safes && a.mines <= hi.mines && a.safes <= hi.safes
      && Derive(s1, ShortenAndInfer(a, kb[k]).result) == Some(d)
  }

  lemma DerivedAtHere(kb: seq<Sentence>, s1: Sentence, j: nat, lo: AI, hi: AI, d: Sentence)
    requires j < |kb| && !Skipped(kb[j], s1)
    requires lo.mines <= hi.mines && lo.safes <= hi.safes
    requires Derive(s1, ShortenAndInfer(lo, kb[j]).result) == Some(d)
    ensures DerivedAt(kb, s1, j, lo, hi, d)
  {
  }

  lemma DerivedAtLater(kb: seq<Sentence>, kb': seq<Sentence>, s1: Sentence, j: nat, lo: AI, mid: AI, hi: AI, d: Sentence)
    requires |kb'| == |kb| && forall i :: j < i < |kb| ==> kb'[i] == kb[i]
    requires lo.mines <= mid.mines && lo.safes <= mid.safes
    requires DerivedAt(kb', s1, j + 1, mid, hi, d)
    ensures DerivedAt(kb, s1, j, lo, hi, d)
  {
    var k: int, a: AI :|
      && j + 1 <= k < |kb'| && !Skipped(kb'[k], s1)
      && mid.mines <= a.mines && mid.safes <= a.safes && a.mines <= hi.mines && a.safes <= hi.safes
      && Derive(s1, ShortenAndInfer(a, kb'[k]).result) == Some(d);
    assert kb'[k] == kb[k];
    assert && j <= k < |kb| && !Skipped(kb[k], s1)
      && lo.mines <= a.mines && lo.safes <= a.safes && a.mines <= hi.mines && a.safes <= hi.safes
      && Derive(s1, ShortenAndInfer(a, kb[k]).result) == Some(d);
  }

  /** Every sentence the scan `sc` derived is `DerivedAt` slots from `j` on, between the
      facts of `lo` and those `sc` ended with. */
  ghost predicate AllDerivedAt(kb: seq<Sentence>, s1: Sentence, j: nat, lo: AI, sc: Scan)
  {
    forall d :: d in sc.derived ==> DerivedAt(kb, s1, j, lo, sc.ai, d)
  }

  /** The facts of `lo`, `mid` and `hi` only grow in that order. */
  predicate FactsBetween(lo: AI, mid: AI, hi: AI)
  {
    lo.mines <= mid.mines <= hi.mines && lo.safes <= mid.safes <= hi.safes
  }

  /** The result derived at slot `j` itself, followed by results derived at later slots that
      were left as they are, are all derived from slot `j` on. */
  lemma DerivedAtConcat(kb: seq<Sentence>, kb': seq<Sentence>, s1: Sentence, j: nat, lo: AI, mid: AI, rest: Scan)
    requires j < |kb| && !Skipped(kb[j], s1)
    requires |kb'| == |kb| && forall i :: j < i < |kb| ==> kb'[i] == kb[i]
    requires FactsBetween(lo, mid, rest.ai)
    requires AllDerivedAt(kb', s1, j + 1, mid, rest)
    ensures AllDerivedAt(kb, s1, j, lo, Scan(rest.ai, Derived(s1, ShortenAndInfer(lo, kb[j]).result) + rest.derived))
  {
    var here := Derived(s1, ShortenAndInfer(lo, kb[j]).result);
    forall d | d in here + rest.derived
      ensures DerivedAt(kb, s1, j, lo, rest.ai, d)
    {
      if d in here {
        DerivedAtHere(kb, s1, j, lo, rest.ai, d);
      } else {
        DerivedAtLater(kb, kb', s1, j, lo, mid, rest.ai, d);
      }
    }
  }

  /** One step of the scan keeps `AllDerivedAt`: the slot's own result is derived there, and
      the rest of the scan's results were derived at later slots it had not touched. */
  lemma PairsStep(ai: AI, s1: Sentence, j: nat)
    requires j < |ai.knowledge| && !Skipped(ai.knowledge[j], s1)
    requires AllDerivedAt(InferStored(ai, j).ai.knowledge, s1, j + 1, InferStored(ai, j).ai,
      SubSentencesFrom(InferStored(ai, j).ai, s1, j + 1))
    ensures AllDerivedAt(ai.knowledge, s1, j, ai, SubSentencesFrom(ai, s1, j))
  {
    var st := InferStored(ai, j);
    var rest := SubSentencesFrom(st.ai, s1, j + 1);
    assert SubSentencesFrom(ai, s1, j) == Scan(rest.ai, Derived(s1, ShortenAndInfer(ai, ai.knowledge[j]).result) + rest.derived);
    DerivedAtConcat(ai.knowledge, st.ai.knowledge, s1, j, ai, st.ai, rest);
  }

  /** Each derived sentence is what the subset rule gives for `s1` and the stored sentence of
      a slot scanned and not skipped, as shortening and inference leave it against facts the
      scan held: at least those it started with and at most those it ended with. */
  lemma {:induction false} SubSentencesFromPairs(ai: AI, s1: Sentence, j: nat)
    requires j <= |ai.knowledge|
    ensures AllDerivedAt(ai.knowledge, s1, j, ai, SubSentencesFrom(ai, s1, j))
    decreases |ai.knowledge| - j
  {
    if j < |ai.knowledge| {
      var sc := SubSentencesFrom(ai, s1, j);
      if Skipped(ai.knowledge[j], s1) {
        SubSentencesFromPairs(ai, s1, j + 1);
        assert sc == SubSentencesFrom(ai, s1, j + 1);
        forall d | d in sc.derived
          ensures DerivedAt(ai.knowledge, s1, j, ai, sc.ai, d)
        {
          DerivedAtLater(ai.knowledge, ai.knowledge, s1, j, ai, ai, sc.ai, d);
        }
      } else {
        SubSentencesFromPairs(InferStored(ai, j).ai, s1, j + 1);
        PairsStep(ai, s1, j);
      }
    }
  }

  /** Pairs that are equal, or that have an empty side, produce nothing and change nothing. */
  lemma {:induction false} SkippedPairsDeriveNothing(ai: AI, s1: Sentence, j: nat)
    requires j <= |ai.knowledge|
    requires forall i :: j <= i < |ai.knowledge| ==> Skipped(ai.knowledge[i], s1)
    ensures SubSentencesFrom(ai, s1, j) == Scan(ai, [])
    decreases |ai.knowledge| - j
  {
    if j < |ai.knowledge| {
      SkippedPairsDeriveNothing(ai, s1, j + 1);
    }
  }

  /** The generator's result: the player state, the value the passed sentence holds
      afterwards, and the derived sentences, `None` standing for the source's `False`. */
  datatype Generated = Generated(ai: AI, passed: Sentence, derived: Option<seq<Sentence>>)

  /** The generator's first step: shorten and infer the generating sentence, writing it
      back to its slot when `alias` names the slot that holds that very object. */
  function InferAliased(ai: AI, s1: Sentence, alias: Option<nat>): (r: Step)
    requires alias.Some? ==> alias.value < |ai.knowledge| && ai.knowledge[alias.value] == s1
    ensures |r.ai.knowledge| == |ai.knowledge| && OnlyShrinks(ai.knowledge, r.ai.knowledge)
    ensures r.ai.height == ai.height && r.ai.width == ai.width && r.ai.movesMade == ai.movesMade
    ensures ai.mines <= r.ai.mines && ai.safes <= r.ai.safes
    ensures r.Passed(s1).cells <= s1.cells
    ensures alias.None? ==> r.ai.knowledge == ai.knowledge
    ensures alias.Some? ==> r.ai.knowledge == ai.knowledge[alias.value := r.Passed(s1)]
  {
    var st := ShortenAndInfer(ai, s1);
    if alias.Some? then st.(ai := st.ai.(knowledge := ai.knowledge[alias.value := st.Passed(s1)])) else st
  }

  /** Sub-sentence generation for `s1` against the whole knowledge. `s1` is first shortened
      and inferred; when `alias` names the stored slot that holds the very object `s1`, an
      in-place change to it is seen there. */
  function GenerateSubSentences(ai: AI, s1: Sentence, alias: Option<nat>): (r: Generated)
    requires alias.Some? ==> alias.value < |ai.knowledge| && ai.knowledge[alias.value] == s1
    ensures |r.ai.knowledge| == |ai.knowledge| && OnlyShrinks(ai.knowledge, r.ai.knowledge)
    ensures r.ai.height == ai.height && r.ai.width == ai.width && r.ai.movesMade == ai.movesMade
    ensures ai.mines <= r.ai.mines && ai.safes <= r.ai.safes
    ensures r.passed.cells <= s1.cells
    ensures r.derived.Some? ==> r.derived.value != [] && |r.derived.value| <= |ai.knowledge|
    ensures r.derived.Some? ==> forall d :: d in r.derived.value ==> d.cells != {}
    ensures ai.knowledge == [] ==> r.derived.None?
  {
    var st := InferAliased(ai, s1, alias);
    var scan := SubSentencesFrom(st.ai, st.result, 0);
    SubSentencesFromDerives(st.ai, st.result, 0);
    Generated(scan.ai, st.Passed(s1), if scan.derived == [] then None else Some(scan.derived))
  }


  /** What the subset rule gives for `s1` against the sentences of `kb` as they stand, in
      order, leaving out the pairs the generator skips. */
  function DerivedFromAll(s1: Sentence, kb: seq<Sentence>): (r: seq<Sentence>)
    ensures |r| <= |kb|
  {
    if kb == [] then []
    else (if Skipped(kb[0], s1) then [] else Derived(s1, kb[0])) + DerivedFromAll(s1, kb[1..])
  }

  /** A sentence is derived exactly when some stored sentence not skipped gives it by the
      subset rule. */
  lemma {:induction false} DerivedFromAllMembership(s1: Sentence, kb: seq<Sentence>, d: Sentence)
    ensures d in DerivedFromAll(s1, kb) <==>
      exists k :: 0 <= k < |kb| && !Skipped(kb[k], s1) && Derive(s1, kb[k]) == Some(d)
    decreases |kb|
  {
    if kb != [] {
      DerivedFromAllMembership(s1, kb[1..], d);
      var here := if Skipped(kb[0], s1) then [] else Derived(s1, kb[0]);
      assert DerivedFromAll(s1, kb) == here + DerivedFromAll(s1, kb[1..]);
      if exists k :: 0 <= k < |kb| && !Skipped(kb[k], s1) && Derive(s1, kb[k]) == Some(d) {
        var k :| 0 <= k < |kb| && !Skipped(kb[k], s1) && Derive(s1, kb[k]) == Some(d);
        if k > 0 {
          assert kb[1..][k - 1] == kb[k];
        }
      }
      if d in DerivedFromAll(s1, kb[1..]) {
        var k :| 0 <= k < |kb[1..]| && !Skipped(kb[1..][k], s1) && Derive(s1, kb[1..][k]) == Some(d);
        assert kb[k + 1] == kb[1..][k];
      }
    }
  }

  /** When every stored sentence from slot `j` on is settled, the scan changes nothing and
      derives exactly the subset rule's results against those sentences as they stand. */
  lemma {:induction false} SettledScan(ai: AI, s1: Sentence, j: nat)
    requires j <= |ai.knowledge|
    requires forall k :: j <= k < |ai.knowledge| ==> Settled(ai, ai.knowledge[k])
    ensures SubSentencesFrom(ai, s1, j) == Scan(ai, DerivedFromAll(s1, ai.knowledge[j..]))
    decreases |ai.knowledge| - j
  {
    if j < |ai.knowledge| {
      var s2 := ai.knowledge[j];
      SettledScan(ai, s1, j + 1);
      assert ai.knowledge[j..][1..] == ai.knowledge[j + 1..];
      assert ai.knowledge[j..][0] == s2;
      if !Skipped(s2, s1) {
        SettledUnchanged(ai, s2);
        assert ai.knowledge[j := s2] == ai.knowledge;
        assert InferStored(ai, j) == Inferred(ai, s2);
      }
    }
  }

  /** Sub-sentence generation over settled sentences changes nothing and derives something
      exactly when some stored sentence not skipped relates to `s1` by the subset rule. Every
      such result is derived, and nothing else is. */
  lemma SettledGeneration(ai: AI, s1: Sentence, alias: Option<nat>)
    requires alias.Some? ==> alias.value < |ai.knowledge| && ai.knowledge[alias.value] == s1
    requires Settled(ai, s1) && forall k :: 0 <= k < |ai.knowledge| ==> Settled(ai, ai.knowledge[k])
    ensures GenerateSubSentences(ai, s1, alias).ai == ai
    ensures GenerateSubSentences(ai, s1, alias).passed == s1
    ensures GenerateSubSentences(ai, s1, alias).derived.Some? <==>
      exists k :: 0 <= k < |ai.knowledge| && !Skipped(ai.knowledge[k], s1) && Derive(s1, ai.knowledge[k]).Some?
    ensures forall d :: GenerateSubSentences(ai, s1, alias).derived.Some? && d in GenerateSubSentences(ai, s1, alias).derived.value <==>
      exists k :: 0 <= k < |ai.knowledge| && !Skipped(ai.knowledge[k], s1) && Derive(s1, ai.knowledge[k]) == Some(d)
  {
    SettledUnchanged(ai, s1);
    if alias.Some? {
      assert ai.knowledge[alias.value := s1] == ai.knowledge;
    }
    assert InferAliased(ai, s1, alias) == Step(ai, s1, true);
    SettledScan(ai, s1, 0);
    assert ai.knowledge[0..] == ai.knowledge;
    var ds := DerivedFromAll(s1, ai.knowledge);
    assert GenerateSubSentences(ai, s1, alias) == Generated(ai, s1, if ds == [] then None else Some(ds));
    forall d
      ensures d in ds <==> exists k :: 0 <= k < |ai.knowledge| && !Skipped(ai.knowledge[k], s1) && Derive(s1, ai.knowledge[k]) == Some(d)
    {
      DerivedFromAllMembership(s1, ai.knowledge, d);
    }
    if exists k :: 0 <= k < |ai.knowledge| && !Skipped(ai.knowledge[k], s1) && Derive(s1, ai.knowledge[k]).Some? {
      var k :| 0 <= k < |ai.knowledge| && !Skipped(ai.knowledge[k], s1) && Derive(s1, ai.knowledge[k]).Some?;
      assert Derive(s1, ai.knowledge[k]).value in ds;
    }
    if ds != [] {
      assert ds[0] in ds;
    }
  }

  /** The subset rule at work: a fresh 3-by-3 player holding "one mine among (0,0) and (0,1)"
      learns from "one mine among (0,0), (0,1) and (0,2)" that (0,2) holds no mine. */
  lemma SubsetRuleExample()
    ensures GenerateSubSentences(NewAI(3, 3).(knowledge := [NewSentence({(0, 0), (0, 1)}, 1)]),
      NewSentence({(0, 0), (0, 1), (0, 2)}, 1), None).derived == Some([NewSentence({(0, 2)}, 0)])
  {
    var a := NewSentence({(0, 0), (0, 1)}, 1);
    var s1 := NewSentence({(0, 0), (0, 1), (0, 2)}, 1);
    var ai := NewAI(3, 3).(knowledge := [a]);
    assert |a.cells| == 2;
    assert |s1.cells| == 3;
    assert a.cells < s1.cells && s1.cells - a.cells == {(0, 2)};
    SettledGeneration(ai, s1, None);
    assert [a][1..] == [];
    assert DerivedFromAll(s1, [a]) == [NewSentence({(0, 2)}, 0)];
    SettledScan(ai, s1, 0);
    assert ai.knowledge[0..] == [a];
  }

  /** The subset rule pairs with the stored sentence as shortened, not as stored: a player who
      knows (0,0) is safe and holds "one mine among (0,0), (0,1) and (0,2)" learns from "one
      mine among (0,1), (0,2) and (1,1)" that (1,1) holds no mine, although the stored
      sentence's cells are not a subset of the new one's. */
  lemma ShortenedPairExample()
    ensures GenerateSubSentences(NewAI(3, 3).(safes := {(0, 0)}, knowledge := [NewSentence({(0, 0), (0, 1), (0, 2)}, 1)]),
      NewSentence({(0, 1), (0, 2), (1, 1)}, 1), None).derived == Some([NewSentence({(1, 1)}, 0)])
  {
    var a := NewSentence({(0, 0), (0, 1), (0, 2)}, 1);
    var s1 := NewSentence({(0, 1), (0, 2), (1, 1)}, 1);
    var t := NewSentence({(0, 1), (0, 2)}, 1);
    var ai := NewAI(3, 3).(safes := {(0, 0)}, knowledge := [a]);
    ExampleSentences();
    assert ShortenAndInfer(ai, a) == Step(ai, t, false);
    OneCopyPaired(ai, s1, t);
  }

  /** With one stored sentence whose shortened copy `t` the trivial rules leave alone, and a
      settled generating sentence that is not skipped against it, the generator derives what
      the subset rule gives for `s1` and `t`. */
  lemma OneCopyPaired(ai: AI, s1: Sentence, t: Sentence)
    requires |ai.knowledge| == 1 && !Skipped(ai.knowledge[0], s1) && Settled(ai, s1)
    requires Shorten(ai.knowledge[0], ai.safes, ai.mines).Some?
    requires ShortenAndInfer(ai, ai.knowledge[0]) == Step(ai, t, false)
    ensures GenerateSubSentences(ai, s1, None).derived == if Derived(s1, t) == [] then None else Some(Derived(s1, t))
  {
    SettledUnchanged(ai, s1);
    assert InferAliased(ai, s1, None) == Step(ai, s1, true);
    InferStoredOnCopy(ai, 0);
    assert SubSentencesFrom(ai, s1, 1) == Scan(ai, []);
    assert SubSentencesFrom(ai, s1, 0) == Scan(ai, Derived(s1, t));
  }

  /** The set facts `ShortenedPairExample` rests on. */
  lemma ExampleSentences()
    ensures var a := NewSentence({(0, 0), (0, 1), (0, 2)}, 1);
      var s1 := NewSentence({(0, 1), (0, 2), (1, 1)}, 1);
      var t := NewSentence({(0, 1), (0, 2)}, 1);
      && |s1.cells| == 3 && |t.cells| == 2
      && Shorten(a, {(0, 0)}, {}) == Some(t)
      && a.cells != s1.cells
      && Derived(s1, t) == [NewSentence({(1, 1)}, 0)]
  {
    var a := NewSentence({(0, 0), (0, 1), (0, 2)}, 1);
    var s1 := NewSentence({(0, 1), (0, 2), (1, 1)}, 1);
    var t := NewSentence({(0, 1), (0, 2)}, 1);
    assert |s1.cells| == 3;
    assert |t.cells| == 2;
    assert Among(a.cells, {}) == {};
    assert (0, 0) in a.cells && a.cells - {} - {(0, 0)} == t.cells;
    assert Shorten(a, {(0, 0)}, {}).Some?;
    assert (0, 0) !in s1.cells;
    assert t.cells < s1.cells && s1.cells - t.cells == {(1, 1)};
  }

  /** The pass over `knowledge[j..]` that shortens and infers each stored sentence in turn. */
  function InferFromAllFrom(ai: AI, j: nat): (r: AI)
    requires j <= |ai.knowledge|
    ensures |r.knowledge| == |ai.knowledge| && OnlyShrinks(ai.knowledge, r.knowledge)
    ensures r.height == ai.height && r.width == ai.width && r.movesMade == ai.movesMade
    ensures ai.mines <= r.mines && ai.safes <= r.safes
    decreases |ai.knowledge| - j
  {
    if j == |ai.knowledge| then ai
    else
      var ai1 := InferStored(ai, j).ai;
      var r := InferFromAllFrom(ai1, j + 1);
      OnlyShrinksTransitive(ai.knowledge, ai1.knowledge, r.knowledge);
      r
  }

  function InferFromAll(ai: AI): (r: AI)
    ensures |r.knowledge| == |ai.knowledge| && OnlyShrinks(ai.knowledge, r.knowledge)
    ensures r.height == ai.height && r.width == ai.width && r.movesMade == ai.movesMade
    ensures ai.mines <= r.mines && ai.safes <= r.safes
  {
    InferFromAllFrom(ai, 0)
  }

  /** Where the observation's own sentence object ended up: in a knowledge slot, or outside
      the knowledge with the given value. */
  datatype Ref = Stored(index: nat) | Detached(value: Sentence)

  /** Outcome of adding one sentence: the new state and where the sentence object is, or the
      `TypeError` the source raises, with the state it had reached. */
  datatype Processed = Added(ai: AI, s: Ref) | TypeErrorRaised(partial: AI)

  /** The part both versions of sentence intake share: shorten and infer `s`; drop it when
      its cells are gone; otherwise generate sub-sentences for it and append it. */
  datatype Intaken = Dropped(ai: AI, value: Sentence) | Appended(ai: AI, s: Ref, derived: Option<seq<Sentence>>)

  function Intake(ai: AI, s: Sentence): (r: Intaken)
    ensures r.Appended? ==> |r.ai.knowledge| == |ai.knowledge| + 1
    ensures r.Appended? && r.s.Stored? ==> r.s.index == |ai.knowledge|
    ensures r.Dropped? ==> |r.ai.knowledge| == |ai.knowledge| && r.value.cells <= s.cells
    ensures r.Appended? ==> r.ai.knowledge[|ai.knowledge|].cells <= s.cells
    ensures OnlyShrinks(ai.knowledge, r.ai.knowledge)
    ensures r.ai.height == ai.height && r.ai.width == ai.width && r.ai.movesMade == ai.movesMade
    ensures ai.mines <= r.ai.mines && ai.safes <= r.ai.safes
    ensures r.Appended? && r.derived.Some? ==> r.derived.value != []
    ensures r.Appended? && ai.knowledge == [] ==> r.derived.None?
    ensures r.Dropped? <==> ShortenAndInfer(ai, s).result.cells == {}
    ensures r.Appended? ==> r.ai.knowledge[|ai.knowledge|].cells != {}
  {
    var st := ShortenAndInfer(ai, s);
    if st.result.cells == {} then Dropped(st.ai, st.Passed(s))
    else
      var g := GenerateSubSentences(st.ai, st.result, None);
      var ref := if st.inPlace then Stored(|g.ai.knowledge|) else Detached(s);
      Appended(g.ai.(knowledge := g.ai.knowledge + [g.passed]), ref, g.derived)
  }

  /** What intake appends: the sentence the trivial rules ran on (the shortened copy, or the
      sentence itself), after sub-sentence generation against the knowledge as it stood; and
      the caller's object is that slot exactly when shortening found nothing to remove. */
  lemma IntakeAppends(ai: AI, s: Sentence)
    ensures var t := Target(ai, s); var g := GenerateSubSentences(ai, t, None);
      Intake(ai, s).Appended? ==>
        && Intake(ai, s).ai == g.ai.(knowledge := g.ai.knowledge + [t])
        && Intake(ai, s).derived == g.derived
        && Intake(ai, s).s == if Shorten(s, ai.safes, ai.mines).None? then Stored(|ai.knowledge|) else Detached(s)
  {
    var t := Target(ai, s);
    ShortenAndInferLearns(ai, s);
    if Intake(ai, s).Appended? {
      if Shorten(s, ai.safes, ai.mines).Some? {
        ShortenIdempotent(s, ai.safes, ai.mines);
      }
      assert Target(ai, t) == t;
      ShortenAndInferLearns(ai, t);
      assert InferAliased(ai, t, None) == Step(ai, t, true);
    }
  }

  /** `process_and_add_sentence_to_knowledge` as written: `len` of the generator's `False`
      raises when the sentence is kept but nothing is derived. */
  function ProcessAndAdd(ai: AI, s: Sentence): (r: Processed)
    ensures r.Added? && r.s.Stored? ==> r.s.index < |r.ai.knowledge|
    ensures r.Added? ==> OnlyShrinks(ai.knowledge, r.ai.knowledge)
    ensures r.TypeErrorRaised? ==> |r.partial.knowledge| == |ai.knowledge| + 1
    ensures r.TypeErrorRaised? <==> Intake(ai, s).Appended? && Intake(ai, s).derived.None?
    ensures ai.knowledge == [] ==> (r.TypeErrorRaised? <==> Intake(ai, s).Appended?)
    ensures r.Added? && Intake(ai, s).Appended? ==> |r.ai.knowledge| >= |ai.knowledge| + 2
    ensures r.Added? && Intake(ai, s).Appended? ==>
      Intake(ai, s).derived.Some? && r.ai.knowledge == Intake(ai, s).ai.knowledge + Intake(ai, s).derived.value
  {
    match Intake(ai, s)
    case Dropped(ai1, v) => Added(ai1, Detached(v))
    case Appended(ai1, ref, derived) =>
      match derived
      case None => TypeErrorRaised(ai1)
      case Some(ds) => Added(ai1.(knowledge := ai1.knowledge + ds), ref)
  }

  /** Sentence intake as evidently intended: nothing derived extends the knowledge by nothing. */
  function ProcessAndAddFixed(ai: AI, s: Sentence): (r: Processed)
    ensures r.Added?
    ensures r.s.Stored? ==> r.s.index < |r.ai.knowledge|
    ensures OnlyShrinks(ai.knowledge, r.ai.knowledge)
    ensures Intake(ai, s).Appended? ==> |r.ai.knowledge| > |ai.knowledge|
    ensures Intake(ai, s).Appended? && Intake(ai, s).derived.None? ==> r.ai.knowledge == Intake(ai, s).ai.knowledge
    ensures Intake(ai, s).Appended? && Intake(ai, s).derived.Some? ==>
      r.ai.knowledge == Intake(ai, s).ai.knowledge + Intake(ai, s).derived.value
  {
    match Intake(ai, s)
    case Dropped(ai1, v) => Added(ai1, Detached(v))
    case Appended(ai1, ref, derived) =>
      match derived
      case None => Added(ai1, ref)
      case Some(ds) => Added(ai1.(knowledge := ai1.knowledge + ds), ref)
  }

  /** The exceptions the source can raise while taking in an observation. */
  datatype PyError = KeyError | TypeError

  datatype Outcome = Ok(ai: AI) | Raised(error: PyError, partial: AI)

  /** The sentence an observation of `count` mines around `cell` gives. */
  function ObservedSentence(ai: AI, cell: Cell, count: int): Sentence
  {
    NewSentence(NeighbourCells(ai.height, ai.width, cell), count)
  }

  /** The observed cell becomes a move made and a known safe cell (in the player only). */
  function RecordMove(ai: AI, cell: Cell): AI
  {
    ai.(movesMade := ai.movesMade + {cell}, safes := ai.safes + {cell})
  }

  /** The closing passes of `add_knowledge`: inference over every stored sentence, then one
      more sub-sentence generation for the observation's sentence object, results unused. */
  function FinishObservation(ai: AI, ref: Ref): (r: AI)
    requires ref.Stored? ==> ref.index < |ai.knowledge|
    ensures |r.knowledge| == |ai.knowledge| && OnlyShrinks(ai.knowledge, r.knowledge)
    ensures r.height == ai.height && r.width == ai.width && r.movesMade == ai.movesMade
    ensures ai.mines <= r.mines && ai.safes <= r.safes
  {
    var ai2 := InferFromAll(ai);
    var g := match ref
      case Stored(i) => GenerateSubSentences(ai2, ai2.knowledge[i], Some(i))
      case Detached(v) => GenerateSubSentences(ai2, v, None);
    OnlyShrinksTransitive(ai.knowledge, ai2.knowledge, g.ai.knowledge);
    g.ai
  }

  /** `add_knowledge` as written. An off-grid cell raises `KeyError` when the neighbourhood
      drops it; the intake raises `TypeError` when nothing is derived. */
  function AddKnowledge(ai: AI, cell: Cell, count: int): (r: Outcome)
    ensures r.Raised? && r.error == KeyError <==> !InGrid(ai.height, ai.width, cell)
    ensures r.Ok? ==> cell in r.ai.movesMade && cell in r.ai.safes
    ensures r.Ok? ==> r.ai.movesMade == ai.movesMade + {cell}
    ensures r.Ok? ==> OnlyShrinks(ai.knowledge, r.ai.knowledge)
    ensures r.Ok? ==> ai.mines <= r.ai.mines && ai.safes <= r.ai.safes
    ensures r.Ok? ==> r.ai.height == ai.height && r.ai.width == ai.width
  {
    var ai0 := RecordMove(ai, cell);
    if !InGrid(ai.height, ai.width, cell) then Raised(KeyError, ai0)
    else
      match ProcessAndAdd(ai0, ObservedSentence(ai, cell, count))
      case TypeErrorRaised(partial) => Raised(TypeError, partial)
      case Added(ai1, ref) => Ok(FinishObservation(ai1, ref))
  }

  /** The slots from `n` on hold, within what later passes removed, the sentence `t` and
      then the sentences `ds` in order. */
  predicate StoresWithin(kb: seq<Sentence>, n: nat, t: Sentence, ds: seq<Sentence>)
  {
    && |kb| == n + 1 + |ds|
    && kb[n].cells <= t.cells
    && forall i :: 0 <= i < |ds| ==> kb[n + 1 + i].cells <= ds[i].cells
  }

  lemma StoresWithinShrinks(a: seq<Sentence>, b: seq<Sentence>, n: nat, t: Sentence, ds: seq<Sentence>)
    requires StoresWithin(a, n, t, ds) && OnlyShrinks(a, b) && |b| == |a|
    ensures StoresWithin(b, n, t, ds)
  {
    forall i | 0 <= i < |ds|
      ensures b[n + 1 + i].cells <= ds[i].cells
    {
      assert b[n + 1 + i].cells <= a[n + 1 + i].cells;
    }
  }

  /** When intake keeps the sentence and returns, the knowledge is the old one, then the
      sentence the trivial rules ran on, then the derived sentences in order. */
  lemma ProcessAndAddStores(ai: AI, s: Sentence)
    ensures var g := GenerateSubSentences(ai, Target(ai, s), None);
      ProcessAndAdd(ai, s).Added? && Intake(ai, s).Appended? ==>
        g.derived.Some? && ProcessAndAdd(ai, s).ai.knowledge == g.ai.knowledge + [Target(ai, s)] + g.derived.value
  {
    IntakeAppends(ai, s);
  }

  /** When `add_knowledge` returns and intake kept the observation, the knowledge has grown
      by the observation's sentence and at least one derived sentence. The new slots hold,
      within what the closing passes remove, the sentence the trivial rules ran on and then
      the derived sentences in order. */
  lemma AddKnowledgeStores(ai: AI, cell: Cell, count: int)
    ensures AddKnowledge(ai, cell, count).Ok? && Intake(RecordMove(ai, cell), ObservedSentence(ai, cell, count)).Appended? ==>
      |AddKnowledge(ai, cell, count).ai.knowledge| >= |ai.knowledge| + 2
    ensures var ai0 := RecordMove(ai, cell); var obs := ObservedSentence(ai, cell, count);
      var g := GenerateSubSentences(ai0, Target(ai0, obs), None);
      AddKnowledge(ai, cell, count).Ok? && Intake(ai0, obs).Appended? ==>
        g.derived.Some? && StoresWithin(AddKnowledge(ai, cell, count).ai.knowledge, |ai.knowledge|, Target(ai0, obs), g.derived.value)
  {
    var ai0 := RecordMove(ai, cell);
    var obs := ObservedSentence(ai, cell, count);
    if InGrid(ai.height, ai.width, cell) && Intake(ai0, obs).Appended? {
      var p := ProcessAndAdd(ai0, obs);
      if p.Added? {
        var r := FinishObservation(p.ai, p.s);
        AddKnowledgeFinishes(ai, cell, count);
        ProcessAndAddStores(ai0, obs);
        var t := Target(ai0, obs);
        var g := GenerateSubSentences(ai0, t, None);
        StoresAppended(g.ai.knowledge, t, g.derived.value);
        StoresWithinShrinks(p.ai.knowledge, r.knowledge, |ai.knowledge|, t, g.derived.value);
      }
    }
  }

  lemma AddKnowledgeFinishes(ai: AI, cell: Cell, count: int)
    requires InGrid(ai.height, ai.width, cell)
    requires ProcessAndAdd(RecordMove(ai, cell), ObservedSentence(ai, cell, count)).Added?
    ensures var p := ProcessAndAdd(RecordMove(ai, cell), ObservedSentence(ai, cell, count));
      AddKnowledge(ai, cell, count) == Ok(FinishObservation(p.ai, p.s))
  {
  }

  lemma StoresAppended(kb: seq<Sentence>, t: Sentence, ds: seq<Sentence>)
    ensures StoresWithin(kb + [t] + ds, |kb|, t, ds)
  {
    assert (kb + [t] + ds)[|kb|] == t;
    forall i | 0 <= i < |ds|
      ensures (kb + [t] + ds)[|kb| + 1 + i] == ds[i]
    {
    }
  }

  /** `add_knowledge` with the intake corrected: only an off-grid cell raises. */
  function AddKnowledgeFixed(ai: AI, cell: Cell, count: int): (r: Outcome)
    ensures r.Ok? <==> InGrid(ai.height, ai.width, cell)
    ensures r.Raised? ==> r.error == KeyError
    ensures r.Ok? ==> r.ai.movesMade == ai.movesMade + {cell} && cell in r.ai.safes
    ensures r.Ok? ==> OnlyShrinks(ai.knowledge, r.ai.knowledge)
    ensures r.Ok? ==> ai.mines <= r.ai.mines && ai.safes <= r.ai.safes
    ensures r.Ok? ==> r.ai.height == ai.height && r.ai.width == ai.width
    ensures r.Ok? && Intake(RecordMove(ai, cell), ObservedSentence(ai, cell, count)).Appended? ==>
      |r.ai.knowledge| > |ai.knowledge|
  {
    var ai0 := RecordMove(ai, cell);
    if !InGrid(ai.height, ai.width, cell) then Raised(KeyError, ai0)
    else
      match ProcessAndAddFixed(ai0, ObservedSentence(ai, cell, count))
      case TypeErrorRaised(partial) => Raised(TypeError, partial)
      case Added(ai1, ref) => Ok(FinishObservation(ai1, ref))
  }

  /** The first observation of a fresh 8-by-8 game, one mine next to the corner, makes the
      source raise `TypeError`: the corner sentence survives intake, and with an empty
      knowledge nothing can be derived from it. The corrected intake takes it in. */
  lemma FirstObservationRaises()
    ensures AddKnowledge(NewAI(8, 8), (0, 0), 1) == Raised(TypeError, Intake(RecordMove(NewAI(8, 8), (0, 0)), ObservedSentence(NewAI(8, 8), (0, 0), 1)).ai)
    ensures AddKnowledgeFixed(NewAI(8, 8), (0, 0), 1).Ok?
    ensures |AddKnowledgeFixed(NewAI(8, 8), (0, 0), 1).ai.knowledge| == 1
  {
    var ai := NewAI(8, 8);
    var ai0 := RecordMove(ai, (0, 0));
    var s := ObservedSentence(ai, (0, 0), 1);
    NeighbourCellsMembership(8, 8, (0, 0), (0, 1));
    NeighbourCellsMembership(8, 8, (0, 0), (1, 0));
    assert {(0, 1), (1, 0)} <= s.cells;
    SubsetCardinality({(0, 1), (1, 0)}, s.cells);
    assert Shorten(s, ai0.safes, ai0.mines).None?;
    assert Intake(ai0, s).Appended?;
  }
}

=== FILE: moves.dfy ===
/** Choosing the player's next move: a known-safe cell not yet played, or else any cell of
    the board neither played nor known to be a mine. Neither choice changes the player. */
module Moves {

  import opened Wrappers
  import opened Cells
  import opened AIState
  import opened Soundness

  /** Cells known to be safe that have not been played. */
  function SafeMoves(ai: AI): set<Cell>
  {
    ai.safes - ai.movesMade
  }

  /** Some known-safe cell not yet played, or `None` when there is none. Which one is left
      open, as the source pops from an unordered set. */
  method MakeSafeMove(ai: AI) returns (r: Option<Cell>)
    ensures r.None? <==> SafeMoves(ai) == {}
    ensures r.Some? ==> r.value in ai.safes && r.value !in ai.movesMade
  {
    var safeMoves := ai.safes - ai.movesMade;
    if safeMoves != {} {
      var c :| c in safeMoves;
      r := Some(c);
    } else {
      r := None;
    }
  }

  /** A sound player's safe moves never hit a mine. */
  lemma SafeMovesAreSafe(ai: AI, m: set<Cell>)
    requires FactsSound(ai, m)
    ensures SafeMoves(ai) !! m
  {
  }

  /** Every cell of the board not played and not known to be a mine. */
  function RandomMoveOptions(ai: AI): set<Cell>
  {
    AllCells(ai.height, ai.width) - ai.movesMade - ai.mines
  }

  /** The options are exactly the in-grid cells neither played nor known to be mines. */
  lemma RandomMoveOptionsMembership(ai: AI, p: Cell)
    ensures p in RandomMoveOptions(ai) <==>
      InGrid(ai.height, ai.width, p) && p !in ai.movesMade && p !in ai.mines
  {
    AllCellsMembership(ai.height, ai.width, p);
  }

  /** A random move: any one of the options, or `None` standing for the `IndexError` that
      choosing from no options raises. */
  method MakeRandomMove(ai: AI) returns (r: Option<Cell>)
    ensures r.None? <==> RandomMoveOptions(ai) == {}
    ensures r.Some? ==> InGrid(ai.height, ai.width, r.value)
    ensures r.Some? ==> r.value !in ai.movesMade && r.value !in ai.mines
  {
    var options := RandomMoveOptions(ai);
    if options == {} {
      r := None;
    } else {
      var c :| c in options;
      RandomMoveOptionsMembership(ai, c);
      r := Some(c);
    }
  }

  /** Random moves run out only when every cell of the board has been played or is a known
      mine. */
  lemma NoOptionsWhenCovered(ai: AI)
    ensures RandomMoveOptions(ai) == {} <==> AllCells(ai.height, ai.width) <= ai.movesMade + ai.mines
  {
    EmptyDifference(AllCells(ai.height, ai.width), ai.movesMade + ai.mines);
    assert RandomMoveOptions(ai) == AllCells(ai.height, ai.width) - (ai.movesMade + ai.mines);
  }
}

=== FILE: sentence.dfy ===
/** A logical statement "exactly `count` of `cells` are mines", with the cells the
    statement itself has learned to be mines or safe. */
module Sentences {

  import opened Cells

  datatype Sentence = Sentence(cells: set<Cell>, count: int, mines: set<Cell>, safes: set<Cell>)

  /** A freshly built sentence has not learned anything yet. */
  function NewSentence(cells: set<Cell>, count: int): (r: Sentence)
    ensures r.cells == cells && r.count == count
    ensures KnownMines(r) == {} && KnownSafes(r) == {} && LearnedApart(r)
  {
    Sentence(cells, count, {}, {})
  }

  /** Equality of sentences: same cells and same count; the learned sets play no part. */
  predicate SameStatement(a: Sentence, b: Sentence)
  {
    a.cells == b.cells && a.count == b.count
  }

  /** No learned cell is still among the sentence's cells: marking always takes it out. */
  predicate LearnedApart(s: Sentence)
  {
    s.mines !! s.cells && s.safes !! s.cells
  }

  /** The cells this sentence was told are mines. They have left its cells, so for a
      sentence built and marked as the program does none of them is among its cells. */
  function KnownMines(s: Sentence): (r: set<Cell>)
    ensures r == s.mines
    ensures LearnedApart(s) ==> r !! s.cells
  {
    s.mines
  }

  /** The cells this sentence was told are safe; likewise never among its cells. */
  function KnownSafes(s: Sentence): (r: set<Cell>)
    ensures r == s.safes
    ensures LearnedApart(s) ==> r !! s.cells
  {
    s.safes
  }

  /** Record that `c` is a mine: it leaves the statement, taking one mine of the count with it. */
  function MarkMine(s: Sentence, c: Cell): (r: Sentence)
    ensures c in s.cells ==> r.cells == s.cells - {c} && r.count == s.count - 1
    ensures c !in s.cells ==> r.cells == s.cells && r.count == s.count
    ensures c !in r.cells
    ensures KnownMines(r) == KnownMines(s) + {c} && KnownSafes(r) == KnownSafes(s)
  {
    if c in s.cells then
      s.(cells := s.cells - {c}, count := s.count - 1, mines := s.mines + {c})
    else
      s.(mines := s.mines + {c})
  }

  /** Record that `c` is safe: it leaves the statement and the count stays. */
  function MarkSafe(s: Sentence, c: Cell): (r: Sentence)
    ensures r.cells == s.cells - {c} && r.count == s.count
    ensures KnownSafes(r) == KnownSafes(s) + {c} && KnownMines(r) == KnownMines(s)
  {
    if c in s.cells then
      s.(cells := s.cells - {c}, safes := s.safes + {c})
    else
      s.(safes := s.safes + {c})
  }

  /** Marking never makes a sentence mention more cells, and a cell marked a mine is not
      also recorded as a learned safe unless it already was one. */
  lemma MarkNeverGrows(s: Sentence, c: Cell)
    ensures |MarkMine(s, c).cells| <= |s.cells| && |MarkSafe(s, c).cells| <= |s.cells|
    ensures c !in s.safes ==> c !in KnownSafes(MarkMine(s, c))
    ensures c !in s.mines ==> c !in KnownMines(MarkSafe(s, c))
  {
    SubsetCardinality(s.cells - {c}, s.cells);
  }

  /** Marking keeps every learned cell out of the cells, whatever was marked before. */
  lemma MarkKeepsLearnedApart(s: Sentence, c: Cell)
    requires LearnedApart(s)
    ensures LearnedApart(MarkMine(s, c)) && LearnedApart(MarkSafe(s, c))
  {
  }

  /** The cells of `cells` that lie in `m`. */
  function Among(cells: set<Cell>, m: set<Cell>): set<Cell>
  {
    set c | c in cells && c in m
  }

  /** The effect of marking every cell of `cs` as a mine, in any order. */
  function MarkMines(s: Sentence, cs: set<Cell>): Sentence
  {
    s.(cells := s.cells - cs, count := s.count - |Among(s.cells, cs)|, mines := s.mines + cs)
  }

  /** The effect of marking every cell of `cs` as safe, in any order. */
  function MarkSafes(s: Sentence, cs: set<Cell>): Sentence
  {
    s.(cells := s.cells - cs, safes := s.safes + cs)
  }

  /** Marking a whole set of mines, or of safe cells, at once keeps every learned cell out
      of the cells as well. */
  lemma MarkSetsKeepLearnedApart(s: Sentence, cs: set<Cell>)
    requires LearnedApart(s)
    ensures LearnedApart(MarkMines(s, cs)) && LearnedApart(MarkSafes(s, cs))
  {
  }

  /** Marking one more mine extends the marked set by that cell. */
  lemma MarkMinesStep(s: Sentence, done: set<Cell>, c: Cell)
    requires c !in done
    ensures MarkMine(MarkMines(s, done), c) == MarkMines(s, done + {c})
  {
    var t := MarkMines(s, done);
    var u := MarkMines(s, done + {c});
    assert t.cells - {c} == u.cells;
    assert t.mines + {c} == u.mines;
    if c in s.cells {
      assert Among(s.cells, done + {c}) == Among(s.cells, done) + {c};
      assert c !in Among(s.cells, done);
    } else {
      assert Among(s.cells, done + {c}) == Among(s.cells, done);
    }
  }

  /** Marking one more safe cell extends the marked set by that cell. */
  lemma MarkSafesStep(s: Sentence, done: set<Cell>, c: Cell)
    ensures MarkSafe(MarkSafes(s, done), c) == MarkSafes(s, done + {c})
  {
    var t := MarkSafes(s, done);
    var u := MarkSafes(s, done + {c});
    assert t.cells - {c} == u.cells;
    assert t.safes + {c} == u.safes;
  }

  lemma MarkNothing(s: Sentence)
    ensures MarkMines(s, {}) == s && MarkSafes(s, {}) == s
  {
    assert s.cells - {} == s.cells;
    assert Among(s.cells, {}) == {};
  }

  // ---------------------------------------------------------------------------
  // Truth of a sentence with respect to the actual set of mines `m` on the board
  // ---------------------------------------------------------------------------

  /** The statement is true: exactly `count` of its cells are mines. */
  predicate Holds(s: Sentence, m: set<Cell>)
  {
    |Among(s.cells, m)| == s.count
  }

  /** What the sentence learned is true: its mines are mines, its safes are not. */
  predicate LearnedSound(s: Sentence, m: set<Cell>)
  {
    s.mines <= m && s.safes !! m
  }

  predicate Truthful(s: Sentence, m: set<Cell>)
  {
    Holds(s, m) && LearnedSound(s, m)
  }

  /** A true sentence has a count between zero and its number of cells. */
  lemma HoldsBoundsCount(s: Sentence, m: set<Cell>)
    requires Holds(s, m)
    ensures 0 <= s.count <= |s.cells|
  {
    SubsetCardinality(Among(s.cells, m), s.cells);
  }

  /** A true sentence whose count equals its size is all mines. */
  lemma FullCountAllMines(s: Sentence, m: set<Cell>)
    requires Holds(s, m) && s.count == |s.cells|
    ensures s.cells <= m
  {
    SubsetCardinality(Among(s.cells, m), s.cells);
  }

  /** A true sentence with count zero is all safe. */
  lemma ZeroCountNoMines(s: Sentence, m: set<Cell>)
    requires Holds(s, m) && s.count == 0
    ensures s.cells !! m
  {
    assert Among(s.cells, m) == {};
    assert forall c :: c in s.cells ==> c !in Among(s.cells, m);
  }

  /** Marking a real mine keeps a true sentence true. */
  lemma MarkMineTruthful(s: Sentence, c: Cell, m: set<Cell>)
    requires Truthful(s, m) && c in m
    ensures Truthful(MarkMine(s, c), m)
  {
    if c in s.cells {
      assert Among(s.cells - {c}, m) == Among(s.cells, m) - {c};
      assert c in Among(s.cells, m);
    }
  }

  /** Marking a really safe cell keeps a true sentence true. */
  lemma MarkSafeTruthful(s: Sentence, c: Cell, m: set<Cell>)
    requires Truthful(s, m) && c !in m
    ensures Truthful(MarkSafe(s, c), m)
  {
    assert Among(s.cells - {c}, m) == Among(s.cells, m);
  }

  /** Marking a set of real mines keeps a true sentence true. */
  lemma MarkMinesTruthful(s: Sentence, cs: set<Cell>, m: set<Cell>)
    requires Truthful(s, m) && cs <= m
    ensures Truthful(MarkMines(s, cs), m)
  {
    var k := Among(s.cells, cs);
    assert Among(s.cells, m) == Among(s.cells - cs, m) + k;
    assert Among(s.cells - cs, m) !! k;
  }

  /** Marking a set of really safe cells keeps a true sentence true. */
  lemma MarkSafesTruthful(s: Sentence, cs: set<Cell>, m: set<Cell>)
    requires Truthful(s, m) && cs !! m
    ensures Truthful(MarkSafes(s, cs), m)
  {
    assert Among(s.cells - cs, m) == Among(s.cells, m);
  }

  /** Equality looks only at cells and count: replacing the learned sets changes nothing. */
  lemma SameStatementIgnoresLearned(a: Sentence, b: Sentence, ma: set<Cell>, sa: set<Cell>, mb: set<Cell>, sb: set<Cell>)
    ensures SameStatement(a, b) <==> SameStatement(a.(mines := ma, safes := sa), b.(mines := mb, safes := sb))
    ensures SameStatement(a, b) <==> SameStatement(NewSentence(a.cells, a.count), NewSentence(b.cells, b.count))
  {
  }
}

=== FILE: soundness.dfy ===
/** Soundness of the inference engine against a true mine layout `m`: when every sentence
    and every fact the player holds is true of `m`, everything it derives is true of `m`
    as well. None of this needs the player's safe and mine facts to be disjoint; that they
    are follows from truthfulness. */
module Soundness {

  import opened Wrappers
  import opened Cells
  import opened Sentences
  import opened AIState
  import opened Inference
  import opened Knowledge
  import opened Board

  /** The player's facts agree with `m`: every known mine is a mine, no known safe cell is. */
  predicate FactsSound(ai: AI, m: set<Cell>)
  {
    ai.mines <= m && ai.safes !! m
  }

  predicate KnowledgeTruthful(kb: seq<Sentence>, m: set<Cell>)
  {
    forall i :: 0 <= i < |kb| ==> Truthful(kb[i], m)
  }

  /** The whole player state agrees with `m`. */
  predicate Sound(ai: AI, m: set<Cell>)
  {
    FactsSound(ai, m) && KnowledgeTruthful(ai.knowledge, m)
  }

  /** A sound player never holds a cell as both safe and a mine. */
  lemma SoundFactsDisjoint(ai: AI, m: set<Cell>)
    requires FactsSound(ai, m)
    ensures ai.safes !! ai.mines
  {
    assert forall c :: c in ai.mines ==> c in m;
  }

  /** The mines among `cells` are those among `cells - k` plus those among the part of
      `cells` in `k`, and the two parts never overlap. */
  lemma AmongSplit(cells: set<Cell>, k: set<Cell>, m: set<Cell>)
    ensures |Among(cells, m)| == |Among(cells - k, m)| + |Among(Among(cells, k), m)|
  {
    var a := Among(cells - k, m);
    var b := Among(Among(cells, k), m);
    assert Among(cells, m) == a + b;
    assert a !! b;
  }

  /** Cells known not to be mines take nothing off the mine count. */
  lemma AmongWithoutSafe(cells: set<Cell>, k: set<Cell>, m: set<Cell>)
    requires k !! m
    ensures Among(cells - k, m) == Among(cells, m)
  {
  }

  /** The subset rule is sound: when `b`'s cells lie inside `a`'s and both counts are true,
      the cells `a` has beyond `b` hold exactly the difference of the counts. */
  lemma SubsetSound(a: Sentence, b: Sentence, m: set<Cell>)
    requires Holds(a, m) && Holds(b, m) && b.cells <= a.cells
    ensures Holds(NewSentence(a.cells - b.cells, a.count - b.count), m)
  {
    AmongSplit(a.cells, b.cells, m);
    assert Among(a.cells, b.cells) == b.cells;
  }

  /** Whatever the subset rule derives from two true sentences is true. */
  lemma DeriveSound(s1: Sentence, s2: Sentence, m: set<Cell>)
    requires Holds(s1, m) && Holds(s2, m)
    ensures Derive(s1, s2).Some? ==> Truthful(Derive(s1, s2).value, m)
  {
    if s2.cells < s1.cells {
      SubsetSound(s1, s2, m);
    } else if s1.cells < s2.cells {
      SubsetSound(s2, s1, m);
    }
  }

  /** Shortening a true sentence against sound facts gives a true sentence. */
  lemma ShortenSound(s: Sentence, ai: AI, m: set<Cell>)
    requires Holds(s, m) && FactsSound(ai, m)
    ensures Shorten(s, ai.safes, ai.mines).Some? ==> Truthful(Shorten(s, ai.safes, ai.mines).value, m)
  {
    var sh := Shorten(s, ai.safes, ai.mines);
    if sh.Some? {
      AmongSplit(s.cells, ai.mines, m);
      assert Among(Among(s.cells, ai.mines), m) == Among(s.cells, ai.mines);
      AmongWithoutSafe(s.cells - ai.mines, ai.safes, m);
      assert sh.value.cells == s.cells - ai.mines - ai.safes;
    }
  }

  /** The trivial rules applied to a true sentence with sound facts keep both true: a full
      count marks only mines, a zero count only safe cells. */
  lemma InferTrivialSound(ai: AI, s: Sentence, m: set<Cell>)
    requires FactsSound(ai, m) && Truthful(s, m)
    ensures FactsSound(InferTrivial(ai, s).ai, m) && Truthful(InferTrivial(ai, s).s, m)
  {
    if s.cells != {} && s.count == |s.cells| {
      FullCountAllMines(s, m);
      MarkMinesTruthful(s, s.cells, m);
    } else if s.cells != {} && s.count == 0 {
      ZeroCountNoMines(s, m);
      MarkSafesTruthful(s, s.cells, m);
    }
  }

  /** Shortening then inferring keeps the facts, the resulting sentence and the passed
      sentence's own value true. */
  lemma ShortenAndInferSound(ai: AI, s: Sentence, m: set<Cell>)
    requires FactsSound(ai, m) && Truthful(s, m)
    ensures FactsSound(ShortenAndInfer(ai, s).ai, m)
    ensures Truthful(ShortenAndInfer(ai, s).result, m)
    ensures Truthful(ShortenAndInfer(ai, s).Passed(s), m)
  {
    var sh := Shorten(s, ai.safes, ai.mines);
    ShortenSound(s, ai, m);
    var target := if sh.Some? then sh.value else s;
    InferTrivialSound(ai, target, m);
  }

  /** Writing a true sentence into a slot of true knowledge keeps the knowledge true. */
  lemma UpdateTruthful(kb: seq<Sentence>, j: nat, s: Sentence, m: set<Cell>)
    requires j < |kb| && KnowledgeTruthful(kb, m) && Truthful(s, m)
    ensures KnowledgeTruthful(kb[j := s], m)
  {
  }

  /** Re-inferring a stored sentence of a sound state keeps the state sound, and the
      sentence inference ran on is true. */
  lemma InferStoredSound(ai: AI, j: nat, m: set<Cell>)
    requires j < |ai.knowledge| && Sound(ai, m)
    ensures Sound(InferStored(ai, j).ai, m) && Truthful(InferStored(ai, j).s, m)
  {
    var s := ai.knowledge[j];
    ShortenAndInferSound(ai, s, m);
    UpdateTruthful(ai.knowledge, j, ShortenAndInfer(ai, s).Passed(s), m);
  }

  /** A scan's state is sound and everything it derived is true. */
  predicate ScanSound(sc: Scan, m: set<Cell>)
  {
    Sound(sc.ai, m) && forall d :: d in sc.derived ==> Truthful(d, m)
  }

  /** The sub-sentence scan from a sound state and a true sentence leaves the state sound
      and derives only true sentences. */
  lemma {:induction false} SubSentencesFromSound(ai: AI, s1: Sentence, j: nat, m: set<Cell>)
    requires j <= |ai.knowledge| && Sound(ai, m) && Truthful(s1, m)
    ensures ScanSound(SubSentencesFrom(ai, s1, j), m)
    decreases |ai.knowledge| - j
  {
    if j < |ai.knowledge| {
      var s2 := ai.knowledge[j];
      if Skipped(s2, s1) {
        SubSentencesFromSound(ai, s1, j + 1, m);
        assert SubSentencesFrom(ai, s1, j) == SubSentencesFrom(ai, s1, j + 1);
      } else {
        InferStoredSound(ai, j, m);
        SubSentencesFromSound(InferStored(ai, j).ai, s1, j + 1, m);
        ScanStepSound(ai, s1, j, m);
      }
    }
  }

  /** A scan step that pairs slot `j` with `s1` keeps the scan sound when the rest of the
      scan is. */
  lemma ScanStepSound(ai: AI, s1: Sentence, j: nat, m: set<Cell>)
    requires j < |ai.knowledge| && !Skipped(ai.knowledge[j], s1)
    requires Truthful(s1, m) && Truthful(InferStored(ai, j).s, m)
    requires ScanSound(SubSentencesFrom(InferStored(ai, j).ai, s1, j + 1), m)
    ensures ScanSound(SubSentencesFrom(ai, s1, j), m)
  {
    var st := InferStored(ai, j);
    DeriveSound(s1, st.s, m);
    var rest := SubSentencesFrom(st.ai, s1, j + 1);
    var here := Derived(s1, st.s);
    assert forall d :: d in here ==> Truthful(d, m);
    assert SubSentencesFrom(ai, s1, j) == Scan(rest.ai, here + rest.derived);
  }

  /** The generator's first step keeps a sound state sound, and both the sentence it ran
      on and the passed sentence's value are true. */
  lemma InferAliasedSound(ai: AI, s1: Sentence, alias: Option<nat>, m: set<Cell>)
    requires alias.Some? ==> alias.value < |ai.knowledge| && ai.knowledge[alias.value] == s1
    requires Sound(ai, m) && Truthful(s1, m)
    ensures Sound(InferAliased(ai, s1, alias).ai, m)
    ensures Truthful(InferAliased(ai, s1, alias).result, m)
    ensures Truthful(InferAliased(ai, s1, alias).Passed(s1), m)
  {
    ShortenAndInferSound(ai, s1, m);
    if alias.Some? {
      UpdateTruthful(ai.knowledge, alias.value, ShortenAndInfer(ai, s1).Passed(s1), m);
    }
  }

  /** Sub-sentence generation for a true sentence from a sound state stays sound. */
  lemma GenerateSubSentencesSound(ai: AI, s1: Sentence, alias: Option<nat>, m: set<Cell>)
    requires alias.Some? ==> alias.value < |ai.knowledge| && ai.knowledge[alias.value] == s1
    requires Sound(ai, m) && Truthful(s1, m)
    ensures Sound(GenerateSubSentences(ai, s1, alias).ai, m)
    ensures Truthful(GenerateSubSentences(ai, s1, alias).passed, m)
    ensures GenerateSubSentences(ai, s1, alias).derived.Some? ==>
      forall d :: d in GenerateSubSentences(ai, s1, alias).derived.value ==> Truthful(d, m)
  {
    InferAliasedSound(ai, s1, alias, m);
    var st := InferAliased(ai, s1, alias);
    var scan := SubSentencesFrom(st.ai, st.result, 0);
    SubSentencesFromSound(st.ai, st.result, 0, m);
    assert GenerateSubSentences(ai, s1, alias) ==
      Generated(scan.ai, st.Passed(s1), if scan.derived == [] then None else Some(scan.derived));
  }


  /** The pass over all stored sentences keeps a sound state sound. */
  lemma {:induction false} InferFromAllFromSound(ai: AI, j: nat, m: set<Cell>)
    requires j <= |ai.knowledge| && Sound(ai, m)
    ensures Sound(InferFromAllFrom(ai, j), m)
    decreases |ai.knowledge| - j
  {
    if j < |ai.knowledge| {
      InferStoredSound(ai, j, m);
      InferFromAllFromSound(InferStored(ai, j).ai, j + 1, m);
    }
  }

  /** A cell set splits into the part outside `k` and the part inside it. */
  lemma AmongComplement(cells: set<Cell>, k: set<Cell>)
    ensures cells == (cells - k) + Among(cells, k) && |cells| == |cells - k| + |Among(cells, k)|
  {
    assert (cells - k) !! Among(cells, k);
  }

  /** Against sound facts, a true sentence with a full count shortens to a full sentence,
      and one with a zero count to a zero-count sentence. */
  lemma ShortenKeepsTrivial(s: Sentence, ai: AI, m: set<Cell>)
    requires FactsSound(ai, m) && Holds(s, m) && Shorten(s, ai.safes, ai.mines).Some?
    ensures var t := Shorten(s, ai.safes, ai.mines).value;
      (s.count == |s.cells| ==> t.count == |t.cells| && s.cells == t.cells + Among(s.cells, ai.mines))
      && (s.count == 0 ==> t.count == 0 && s.cells == t.cells + Among(s.cells, ai.safes))
  {
    var t := Shorten(s, ai.safes, ai.mines).value;
    if s.count == |s.cells| {
      FullCountAllMines(s, m);
      assert s.cells - ai.mines - ai.safes == s.cells - ai.mines;
      AmongComplement(s.cells, ai.mines);
    } else if s.count == 0 {
      ZeroCountNoMines(s, m);
      assert Among(s.cells, ai.mines) == {};
      assert s.cells - ai.mines - ai.safes == s.cells - ai.safes;
      AmongComplement(s.cells, ai.safes);
    }
  }

  /** The player's facts hold the trivial consequences of `s`: all its cells are known
      mines when its count is full, all known safe when its count is zero. */
  predicate TrivialLearned(s: Sentence, ai: AI)
  {
    s.cells != {} ==>
      (s.count == |s.cells| ==> s.cells <= ai.mines) && (s.count == 0 ==> s.cells <= ai.safes)
  }

  /** From sound facts, shortening and inference put every cell of a true sentence with a
      full count among the known mines, and every cell of one with a zero count among the
      known safe cells: the shortened copy of such a sentence is full, or zero, again. */
  lemma ShortenAndInferLearnsTrue(ai: AI, s: Sentence, m: set<Cell>)
    requires FactsSound(ai, m) && Holds(s, m)
    ensures TrivialLearned(s, ShortenAndInfer(ai, s).ai)
  {
    var sh := Shorten(s, ai.safes, ai.mines);
    ShortenAndInferLearns(ai, s);
    if sh.Some? {
      assert Target(ai, s) == sh.value;
      ShortenKeepsTrivial(s, ai, m);
    } else {
      assert Target(ai, s) == s;
    }
  }

  /** What the facts hold of a sentence they keep holding as they grow. */
  lemma TrivialLearnedGrows(s: Sentence, a: AI, b: AI)
    requires TrivialLearned(s, a) && a.mines <= b.mines && a.safes <= b.safes
    ensures TrivialLearned(s, b)
  {
  }

  /** Re-inferring a stored sentence of a sound state learns its trivial consequences. */
  lemma InferStoredLearns(ai: AI, j: nat, m: set<Cell>)
    requires j < |ai.knowledge| && Sound(ai, m)
    ensures TrivialLearned(ai.knowledge[j], InferStored(ai, j).ai)
  {
    var s := ai.knowledge[j];
    ShortenAndInferLearnsTrue(ai, s, m);
    var st := ShortenAndInfer(ai, s);
    assert InferStored(ai, j).ai == st.ai.(knowledge := ai.knowledge[j := st.Passed(s)]);
  }

  /** Inferring slot `k` of a sound state and then the slots after it learns slot `k`'s
      trivial consequences. */
  lemma InferFromAllFromLearnsAt(ai: AI, k: nat, m: set<Cell>)
    requires k < |ai.knowledge| && Sound(ai, m)
    ensures TrivialLearned(ai.knowledge[k], InferFromAllFrom(InferStored(ai, k).ai, k + 1))
  {
    var ai1 := InferStored(ai, k).ai;
    InferStoredLearns(ai, k, m);
    TrivialLearnedGrows(ai.knowledge[k], ai1, InferFromAllFrom(ai1, k + 1));
  }

  /** The facts of `ai` hold the trivial consequences of every sentence of `kb` from slot
      `j` on. */
  predicate AllTrivialLearned(kb: seq<Sentence>, j: nat, ai: AI)
  {
    forall k :: j <= k < |kb| ==> TrivialLearned(kb[k], ai)
  }

  /** One pass of inference over the stored sentences from slot `j` on, from a sound
      state: each of those sentences with a full count has all its cells among the known
      mines afterwards, and each with a zero count all its cells among the known safe cells.
      Each slot is untouched until its turn comes. */
  lemma {:induction false} InferFromAllFromLearns(ai: AI, j: nat, m: set<Cell>)
    requires j <= |ai.knowledge| && Sound(ai, m)
    ensures AllTrivialLearned(ai.knowledge, j, InferFromAllFrom(ai, j))
    decreases |ai.knowledge| - j
  {
    if j < |ai.knowledge| {
      var ai1 := InferStored(ai, j).ai;
      var r := InferFromAllFrom(ai1, j + 1);
      InferFromAllFromLearnsAt(ai, j, m);
      InferStoredSound(ai, j, m);
      InferFromAllFromLearns(ai1, j + 1, m);
      assert ai.knowledge[j + 1..] == ai1.knowledge[j + 1..];
      assert AllTrivialLearned(ai.knowledge, j, r) by {
        forall k | j < k < |ai.knowledge|
          ensures TrivialLearned(ai.knowledge[k], r)
        {
          assert ai.knowledge[k] == ai1.knowledge[k];
        }
      }
      assert InferFromAllFrom(ai, j) == r;
    }
  }

  /** The pass over all stored sentences learns every trivial consequence of the sentences
      it starts from: the cells of each full sentence become known mines, those of each
      zero-count sentence known safe cells. */
  lemma InferFromAllLearns(ai: AI, m: set<Cell>)
    requires Sound(ai, m)
    ensures forall k :: 0 <= k < |ai.knowledge| ==> TrivialLearned(ai.knowledge[k], InferFromAll(ai))
  {
    InferFromAllFromLearns(ai, 0, m);
  }

  /** The closing passes of an observation keep what the inference pass learns: from a sound
      state, the cells of every full stored sentence end among the known mines, and those of
      every zero-count one among the known safe cells. */
  lemma FinishObservationLearns(ai: AI, ref: Ref, m: set<Cell>)
    requires Sound(ai, m) && (ref.Stored? ==> ref.index < |ai.knowledge|)
    ensures forall k :: 0 <= k < |ai.knowledge| ==> TrivialLearned(ai.knowledge[k], FinishObservation(ai, ref))
  {
    InferFromAllLearns(ai, m);
    var ai2 := InferFromAll(ai);
    var g := match ref
      case Stored(i) => GenerateSubSentences(ai2, ai2.knowledge[i], Some(i))
      case Detached(v) => GenerateSubSentences(ai2, v, None);
    assert FinishObservation(ai, ref) == g.ai;
    forall k | 0 <= k < |ai.knowledge|
      ensures TrivialLearned(ai.knowledge[k], g.ai)
    {
      TrivialLearnedGrows(ai.knowledge[k], ai2, g.ai);
    }
  }

  /** Appending true sentences to true knowledge keeps it true. */
  lemma AppendTruthful(kb: seq<Sentence>, ds: seq<Sentence>, m: set<Cell>)
    requires KnowledgeTruthful(kb, m) && forall d :: d in ds ==> Truthful(d, m)
    ensures KnowledgeTruthful(kb + ds, m)
  {
    forall i | 0 <= i < |kb + ds|
      ensures Truthful((kb + ds)[i], m)
    {
      if i >= |kb| {
        assert (kb + ds)[i] == ds[i - |kb|];
      }
    }
  }

  /** Where the observation's sentence object ends up, it is true. */
  predicate RefTruthful(ai: AI, ref: Ref, m: set<Cell>)
  {
    (ref.Stored? ==> ref.index < |ai.knowledge|) && (ref.Detached? ==> Truthful(ref.value, m))
  }

  /** When shortening and inference leave a true sentence with cells, intake appends it,
      and the state, the caller's sentence object and the derived sentences are true. */
  lemma IntakeAppendedSound(ai: AI, s: Sentence, m: set<Cell>)
    requires Sound(ai, m) && Truthful(s, m) && ShortenAndInfer(ai, s).result.cells != {}
    ensures Intake(ai, s).Appended? && Sound(Intake(ai, s).ai, m)
    ensures RefTruthful(Intake(ai, s).ai, Intake(ai, s).s, m)
    ensures Intake(ai, s).derived.Some? ==> forall d :: d in Intake(ai, s).derived.value ==> Truthful(d, m)
  {
    var st := ShortenAndInfer(ai, s);
    ShortenAndInferSound(ai, s, m);
    var g := GenerateSubSentences(st.ai, st.result, None);
    GenerateSubSentencesSound(st.ai, st.result, None, m);
    AppendTruthful(g.ai.knowledge, [g.passed], m);
    var ref := if st.inPlace then Stored(|g.ai.knowledge|) else Detached(s);
    assert Intake(ai, s) == Appended(g.ai.(knowledge := g.ai.knowledge + [g.passed]), ref, g.derived);
  }

  /** Taking in a true sentence keeps a sound state sound, whether the sentence is dropped
      or appended. */
  lemma IntakeSound(ai: AI, s: Sentence, m: set<Cell>)
    requires Sound(ai, m) && Truthful(s, m)
    ensures Sound(Intake(ai, s).ai, m)
    ensures Intake(ai, s).Dropped? ==> Truthful(Intake(ai, s).value, m)
    ensures Intake(ai, s).Appended? ==> RefTruthful(Intake(ai, s).ai, Intake(ai, s).s, m)
    ensures Intake(ai, s).Appended? && Intake(ai, s).derived.Some? ==>
      forall d :: d in Intake(ai, s).derived.value ==> Truthful(d, m)
  {
    var st := ShortenAndInfer(ai, s);
    if st.result.cells != {} {
      IntakeAppendedSound(ai, s, m);
    } else {
      ShortenAndInferSound(ai, s, m);
      assert Intake(ai, s) == Dropped(st.ai, st.Passed(s));
    }
  }



  /** Sentence intake as written, from a sound state and a true sentence: a state it
      returns, or the one it raised in, is sound. */
  lemma ProcessAndAddSound(ai: AI, s: Sentence, m: set<Cell>)
    requires Sound(ai, m) && Truthful(s, m)
    ensures ProcessAndAdd(ai, s).Added? ==>
      Sound(ProcessAndAdd(ai, s).ai, m) && RefTruthful(ProcessAndAdd(ai, s).ai, ProcessAndAdd(ai, s).s, m)
    ensures ProcessAndAdd(ai, s).TypeErrorRaised? ==> Sound(ProcessAndAdd(ai, s).partial, m)
  {
    IntakeSound(ai, s, m);
    var it := Intake(ai, s);
    if it.Appended? && it.derived.Some? {
      AppendTruthful(it.ai.knowledge, it.derived.value, m);
    }
  }

  /** The corrected intake keeps a sound state sound and never raises. */
  lemma ProcessAndAddFixedSound(ai: AI, s: Sentence, m: set<Cell>)
    requires Sound(ai, m) && Truthful(s, m)
    ensures Sound(ProcessAndAddFixed(ai, s).ai, m)
    ensures RefTruthful(ProcessAndAddFixed(ai, s).ai, ProcessAndAddFixed(ai, s).s, m)
  {
    IntakeSound(ai, s, m);
    var it := Intake(ai, s);
    if it.Appended? && it.derived.Some? {
      AppendTruthful(it.ai.knowledge, it.derived.value, m);
    }
  }

  /** The closing passes of an observation keep a sound state sound. */
  lemma FinishObservationSound(ai: AI, ref: Ref, m: set<Cell>)
    requires Sound(ai, m) && RefTruthful(ai, ref, m)
    ensures Sound(FinishObservation(ai, ref), m)
  {
    InferFromAllFromSound(ai, 0, m);
    var ai2 := InferFromAll(ai);
    match ref
    case Stored(i) => GenerateSubSentencesSound(ai2, ai2.knowledge[i], Some(i), m);
    case Detached(v) => GenerateSubSentencesSound(ai2, v, None, m);
  }

  /** Recording the observed cell keeps a state sound when the cell is not a mine. */
  lemma RecordMoveSound(ai: AI, cell: Cell, m: set<Cell>)
    requires Sound(ai, m) && cell !in m
    ensures Sound(RecordMove(ai, cell), m)
  {
  }

  /** The board's count for a cell, taken as a sentence over its neighbours, is true of the
      board's mines. */
  lemma ObservationTruthful(g: Game, ai: AI, cell: Cell)
    requires ai.height == g.height && ai.width == g.width
    ensures Truthful(ObservedSentence(ai, cell, |NeighbourCells(g.height, g.width, cell) * g.mines|), g.mines)
  {
    assert Among(NeighbourCells(g.height, g.width, cell), g.mines) == NeighbourCells(g.height, g.width, cell) * g.mines;
  }

  /** Soundness of an observation as written: from a sound state, a safe cell and its true
      count, whatever state `add_knowledge` returns or raises in is sound, so the player's
      safe and mine facts stay disjoint. */
  lemma AddKnowledgeSound(ai: AI, cell: Cell, count: int, m: set<Cell>)
    requires Sound(ai, m) && cell !in m
    requires count == |Among(NeighbourCells(ai.height, ai.width, cell), m)|
    ensures AddKnowledge(ai, cell, count).Ok? ==> Sound(AddKnowledge(ai, cell, count).ai, m)
    ensures AddKnowledge(ai, cell, count).Raised? ==> Sound(AddKnowledge(ai, cell, count).partial, m)
    ensures AddKnowledge(ai, cell, count).Ok? ==>
      AddKnowledge(ai, cell, count).ai.safes !! AddKnowledge(ai, cell, count).ai.mines
  {
    var ai0 := RecordMove(ai, cell);
    RecordMoveSound(ai, cell, m);
    if InGrid(ai.height, ai.width, cell) {
      var s := ObservedSentence(ai, cell, count);
      ProcessAndAddSound(ai0, s, m);
      var p := ProcessAndAdd(ai0, s);
      if p.Added? {
        FinishObservationSound(p.ai, p.s, m);
        SoundFactsDisjoint(FinishObservation(p.ai, p.s), m);
      }
    }
  }

  /** Soundness of an observation with the corrected intake: an in-grid safe cell with its
      true count always gives a sound state. */
  lemma AddKnowledgeFixedSound(ai: AI, cell: Cell, count: int, m: set<Cell>)
    requires Sound(ai, m) && cell !in m && InGrid(ai.height, ai.width, cell)
    requires count == |Among(NeighbourCells(ai.height, ai.width, cell), m)|
    ensures AddKnowledgeFixed(ai, cell, count).Ok?
    ensures Sound(AddKnowledgeFixed(ai, cell, count).ai, m)
    ensures AddKnowledgeFixed(ai, cell, count).ai.safes !! AddKnowledgeFixed(ai, cell, count).ai.mines
  {
    var ai0 := RecordMove(ai, cell);
    RecordMoveSound(ai, cell, m);
    var s := ObservedSentence(ai, cell, count);
    ProcessAndAddFixedSound(ai0, s, m);
    var p := ProcessAndAddFixed(ai0, s);
    FinishObservationSound(p.ai, p.s, m);
    SoundFactsDisjoint(FinishObservation(p.ai, p.s), m);
  }

  /** Marking a true mine, or a truly safe cell, everywhere keeps a sound state sound. */
  lemma MarkGlobalSound(ai: AI, c: Cell, m: set<Cell>)
    requires Sound(ai, m)
    ensures c in m ==> Sound(MarkMineGlobal(ai, c), m)
    ensures c !in m ==> Sound(MarkSafeGlobal(ai, c), m)
  {
    forall i | 0 <= i < |ai.knowledge|
      ensures c in m ==> Truthful(MarkMine(ai.knowledge[i], c), m)
      ensures c !in m ==> Truthful(MarkSafe(ai.knowledge[i], c), m)
    {
      if c in m {
        MarkMineTruthful(ai.knowledge[i], c, m);
      } else {
        MarkSafeTruthful(ai.knowledge[i], c, m);
      }
    }
  }

  /** A fresh player is sound for every layout. */
  lemma NewAISound(height: int, width: int, m: set<Cell>)
    ensures Sound(NewAI(height, width), m)
  {
  }
}

=== FILE: wrappers.dfy ===
/** Option type used where the source returns `False`/`None` or raises instead of a value. */
module Wrappers {

  datatype Option<+T> = None | Some(value: T)
}
